=== FILE: README.md ===
# ACadSharp decoding core in Dafny

This project models the parts of ACadSharp that decode a drawing's bytes and records, and the build steps that resolve handles once everything has been read:

- **Byte order (`InverseConverter`).** The big-endian converter writes and reads values with the opposite byte order to the machine's. Native order is taken to be little-endian two's complement, so `Codec.NativeEncode` is a concrete encoding. The inverse converter is `Codec.GetBytes`/`Codec.ToValue`, with `Codec.Encode`/`Codec.Decode` covering both converters.
- **Byte stream cursor (`StreamIO`).** A stream over an in-memory buffer is its bytes plus a position. Every read returns the value and the stream it leaves behind. Every failure reports its error and the position the failure leaves.
- **OBJECTS section of a DXF file (`DxfObjectsSectionReader`).** The section is a sequence of `(code, text, value)` records, and a cursor is an index into it. Each reader routine returns `Next(value, at)` or `Fail(error, at)`, and an exception becomes a `Fail`. Objects are read by name:
  - dictionary, dictionary with default, layout, dictionary variable, PDF definition, scale, visual style and XRecord go through the shared code loop;
  - SORTENTSTABLE and DIMASSOC have their own loops;
  - any other name goes through the skip loop for unknown objects.

  The section loop collects the templates and the notifications, and it has a failsafe recovery path.
- **Template build steps.** These are the build steps of:
  - the block visibility parameter;
  - dimension associativity;
  - dimensions (including the flag decoding and the replacement of the placeholder dimension object);
  - hatches.

  The document's object registry is a map from handle to object type. An object is identified by its handle.

Modules follow the source:

| module | file |
|---|---|
| `Bytes` | `bytes.dfy` |
| `Codec` | `codec.dfy` |
| `StreamIO` | `stream.dfy` |
| `Cad` | `cad.dfy` |
| `DxfRecords` | `dxf_records.dfy` |
| `DxfHandlers` | `dxf_handlers.dfy` |
| `DxfDimAssoc` | `dxf_dimassoc.dfy` |
| `DxfSortEnts` | `dxf_sortents.dfy` |
| `DxfObjects` | `dxf_objects.dfy` |
| `Registry` | `registry.dfy` |
| `BlockVisibility` | `build_visibility.dfy` |
| `DimAssocBuild` | `build_dimassoc.dfy` |
| `DimensionBuild` | `build_dimension.dfy` |
| `HatchBuild` | `build_hatch.dfy` |

In the block visibility parameter's build step, a sub-block handle that the flat entity list did not resolve adds nothing, even when the document's registry knows it: the branch for that case is empty (BlockVisibilityParameterTemplate.cs:37-38). The model follows the code. `BlockVisibility.Build` and `BlockVisibility.RegistryAloneAddsNothing` state the code's behaviour.

## Model

| member | source | states |
|---|---|---|
| Bytes.LeDecodeEncode | CSUtilities/CSUtilities/Converters/InverseConverter.cs:7-60 | Decoding the little-endian encoding of an n-byte value gives the value back. |
| Codec.GetBytes | CSUtilities/CSUtilities/Converters/InverseConverter.cs:7-60 | The result is exactly the kind's width (2, 4 or 8 bytes). Byte j is the native encoding's byte at width-1-j, i.e. the native bytes reversed. |
| Codec.ToValue | CSUtilities/CSUtilities/Converters/InverseConverter.cs:61-105 | The caller's buffer comes back reversed in place. Success holds exactly when the buffer holds at least the kind's width; otherwise the result is TooShort. The value is the native decoding of the buffer's last `width` bytes read backwards. |
| Codec.GetBytesRoundTrip | CSUtilities/CSUtilities/Converters/InverseConverter.cs:7-105 | For every in-range value, reading GetBytes back gives the value. The buffer ends up holding the native bytes. |
| Codec.ToValueRoundTrip | CSUtilities/CSUtilities/Converters/InverseConverter.cs:7-105 | For every buffer of exactly the kind's width, GetBytes of the decoded value gives back the original buffer. |
| Codec.FullInverseAt | CSUtilities/CSUtilities/Converters/InverseConverter.cs:160-170 | The offset overload of fullInverse succeeds exactly when the array is empty or the offset is its last index. It then returns the array unchanged. Otherwise the index is out of range. |
| Codec.ToValueAt | CSUtilities/CSUtilities/Converters/InverseConverter.cs:107-119 | ToChar(arr, offset) ignores the offset and behaves as ToChar(arr). The other offset overloads succeed only when the offset is the last index and the array holds a full width. They then decode the first `width` bytes in native order, without inversion. |
| Codec.OffsetDecodeCounterexample | CSUtilities/CSUtilities/Converters/InverseConverter.cs:112-119 | For the 4-byte big-endian encoding of 1, ToInt32 at offset 0 fails with IndexOutOfRange, and at offset 3 it returns 16777216. |
| Codec.ToValueAtIntended | CSUtilities/CSUtilities/Converters/InverseConverter.cs:112-119 | The corrected offset read succeeds exactly when `offset + width` lies within the array. It decodes those bytes in big-endian order. |
| Codec.IntendedOffsetRoundTrip | CSUtilities/CSUtilities/Converters/InverseConverter.cs:112-119 | The corrected offset read recovers any in-range value from its GetBytes encoding, whatever bytes surround it. |
| Codec.GetBytesOf | CSUtilities/CSUtilities/Converters/InverseConverter.cs:121-147 | GetBytes<T> fails with NotSupported exactly for a struct type outside the nine kinds. Otherwise it yields a width-long buffer that ToValue reads back to the value. |
| Codec.ConverterRoundTrip | CSUtilities/CSUtilities/Converters/InverseConverter.cs:121-147 | For both converters, decoding an encoded value returns it. The inverse encoding is the native encoding reversed. |
| Codec.FullInverse | CSUtilities/CSUtilities/Converters/InverseConverter.cs:149-158 | The array afterwards holds its previous contents in reverse order. |
| Bytes.ReverseInvolution | CSUtilities/CSUtilities/Converters/InverseConverter.cs:149-158 | Reversing twice restores the bytes, so applying fullInverse twice is the identity. |
| StreamIO.ReadByte | CSUtilities/CSUtilities/IO/StreamIO.cs:128-135 | The result is the byte under the cursor, and the cursor moves by one. At or past the end the result is EndOfStream and the stream is unchanged. |
| StreamIO.ReadChar | CSUtilities/CSUtilities/IO/StreamIO.cs:150-153 | The result is the next byte widened to a character, under the same success condition as ReadByte. |
| StreamIO.ReadBytes | CSUtilities/CSUtilities/IO/StreamIO.cs:163-170 | A negative length fails with ArgumentOutOfRange, untouched. Otherwise the read succeeds exactly when `length` bytes are available, and the result is those bytes in order. A short read is EndOfStream, with the position moved past what was available. |
| StreamIO.ReadByteIsReadBytes | CSUtilities/CSUtilities/IO/StreamIO.cs:128-170 | Reading one byte succeeds exactly when reading a one-byte buffer does, gives that buffer's byte and leaves the stream in the same place. |
| StreamIO.ReadUntil | CSUtilities/CSUtilities/IO/StreamIO.cs:190-203 | A read that succeeds ends with the match and leaves the cursor just after it. Otherwise it fails with EndOfStream. |
| StreamIO.ReadUntilFails | CSUtilities/CSUtilities/IO/StreamIO.cs:190-203 | The read fails exactly when the match does not occur in the rest of the stream. |
| StreamIO.ReadUntilChars | CSUtilities/CSUtilities/IO/StreamIO.cs:190-203 | The characters returned are the stream's, from the cursor on. |
| StreamIO.ReadUntilFirst | CSUtilities/CSUtilities/IO/StreamIO.cs:190-203 | No character before the last is the match, so the read stops at its first occurrence. |
| StreamIO.ReadValue | CSUtilities/CSUtilities/IO/StreamIO.cs:205-397 | The shared body of the eight fixed-width readers below, in both their generic and their default-converter forms. A fixed-width read succeeds exactly when the width is available and consumes exactly that width. The consumed bytes are the chosen converter's encoding of the returned value. |
| StreamIO.ReadShort | CSUtilities/CSUtilities/IO/StreamIO.cs:209-227 | ReadValue at width 2, with the default or a chosen converter. It succeeds exactly when 2 bytes remain and consumes exactly 2. The value is a signed 16-bit value, and its encoding under the converter is the bytes consumed. A short read is EndOfStream. |
| StreamIO.ReadUShort | CSUtilities/CSUtilities/IO/StreamIO.cs:233-250 | ReadValue at width 2, with the default or a chosen converter. It succeeds exactly when 2 bytes remain and consumes exactly 2. The value is an unsigned 16-bit value, and its encoding under the converter is the bytes consumed. A short read is EndOfStream. |
| StreamIO.ReadInt | CSUtilities/CSUtilities/IO/StreamIO.cs:256-274 | ReadValue at width 4, with the default or a chosen converter. It succeeds exactly when 4 bytes remain and consumes exactly 4. The value is a signed 32-bit value, and its encoding under the converter is the bytes consumed. A short read is EndOfStream. |
| StreamIO.ReadUInt | CSUtilities/CSUtilities/IO/StreamIO.cs:280-297 | ReadValue at width 4, with the default or a chosen converter. It succeeds exactly when 4 bytes remain and consumes exactly 4. The value is an unsigned 32-bit value, and its encoding under the converter is the bytes consumed. A short read is EndOfStream. |
| StreamIO.ReadSingle | CSUtilities/CSUtilities/IO/StreamIO.cs:303-321 | ReadValue at width 4, with the default or a chosen converter. It succeeds exactly when 4 bytes remain and consumes exactly 4. The value is a 32-bit pattern, and its encoding under the converter is the bytes consumed. A short read is EndOfStream. |
| StreamIO.ReadDouble | CSUtilities/CSUtilities/IO/StreamIO.cs:327-345 | ReadValue at width 8, with the default or a chosen converter. It succeeds exactly when 8 bytes remain and consumes exactly 8. The value is a 64-bit pattern, and its encoding under the converter is the bytes consumed. A short read is EndOfStream. |
| StreamIO.ReadLong | CSUtilities/CSUtilities/IO/StreamIO.cs:351-369 | ReadValue at width 8, with the default or a chosen converter. It succeeds exactly when 8 bytes remain and consumes exactly 8. The value is a signed 64-bit value, and its encoding under the converter is the bytes consumed. A short read is EndOfStream. |
| StreamIO.ReadULong | CSUtilities/CSUtilities/IO/StreamIO.cs:375-392 | ReadValue at width 8, with the default or a chosen converter. It succeeds exactly when 8 bytes remain and consumes exactly 8. The value is an unsigned 64-bit value, and its encoding under the converter is the bytes consumed. A short read is EndOfStream. |
| StreamIO.ReadString | CSUtilities/CSUtilities/IO/StreamIO.cs:410-423 | Length 0 returns the empty string without touching the stream. Otherwise exactly `length` bytes are read and decoded. A negative length fails and leaves the stream as it was. |
| StreamIO.GetBytesAt | CSUtilities/CSUtilities/IO/StreamIO.cs:104-122 | The result is the bytes at [offset, offset+length), with the position restored on success. A negative length or offset fails. |
| StreamIO.WriteBytes | CSUtilities/CSUtilities/IO/StreamIO.cs:455-458 | On a stream of fixed capacity (a memory stream over a byte array, StreamIO.cs:67-73 and 102), a write that does not fit fails with NotSupported and changes nothing. Otherwise the bytes overwrite the stream at the position, growing it when needed and zero-filling any gap. The rest is unchanged, and the position moves past the write. |
| StreamIO.WriteAtEndAppends | CSUtilities/CSUtilities/IO/StreamIO.cs:455-458 | At the end of a growable stream a write appends. At the end of a fixed one, only an empty write succeeds. |
| StreamIO.Write | CSUtilities/CSUtilities/IO/StreamIO.cs:448-453 | The converter's bytes for the value are written. An unsupported struct type, or a write that does not fit a fixed stream, fails with NotSupported and the stream is unchanged. |
| StreamIO.WriteThenRead | CSUtilities/CSUtilities/IO/StreamIO.cs:219-453 | A write succeeds exactly when the stream can grow or has room. Reading back from where the write began, with the same converter, then returns the written value and ends where the write ended. |
| DxfRecords.ReadCommonCodes | IO/DXF/DxfStreamReader/DxfObjectsSectionReader.cs:117-122 | A 1001 record and the extended-data run after it become one extended-data block, and the cursor moves past them. Any other record is logged as common data and the cursor stays. |
| DxfRecords.CommonObjectData | IO/DXF/DxfStreamReader/DxfObjectsSectionReader.cs:271-279 | Every record up to the first subclass marker is logged as common data, and the cursor stops on the marker. Running out of records is EndOfRecords. |
| DxfHandlers.DictionaryCode | IO/DXF/DxfStreamReader/DxfObjectsSectionReader.cs:223-246 | Code 3 adds an entry name and fails exactly when the name is already present. 350/360 set the last entry's handle, failing with no entry. 280/281 leave the template as it was. |
| DxfHandlers.DictionaryWithDefaultCode | IO/DXF/DxfStreamReader/DxfObjectsSectionReader.cs:248-264 | 340 sets the default entry. Other codes go to the subclass map, then to the dictionary handler. |
| DxfHandlers.LayoutCode | IO/DXF/DxfStreamReader/DxfObjectsSectionReader.cs:149-168 | 330 sets the paper-space block and 331 the last active viewport. The handler declines exactly the codes that neither the layout map nor the plot-settings map has. |
| DxfHandlers.XRecordEntries | IO/DXF/DxfStreamReader/DxfObjectsSectionReader.cs:211-221 | Every record up to the next start record becomes an entry, in order. |
| DxfHandlers.HandleRecord | IO/DXF/DxfStreamReader/DxfObjectsSectionReader.cs:131-264 | A handler declines exactly the records its type does not claim. A taken record only adds fields its map has. Scale's code 70 and VisualStyle's 176, 177 and 420 are consumed with no effect. Only the XRecord marker moves the cursor, to the next start record. |
| DxfHandlers.ObjectCodes | IO/DXF/DxfStreamReader/DxfObjectsSectionReader.cs:108-129 | The loop ends on the next start record. With no start record ahead it fails. The body keeps the shape of its reader. Fields and common data only grow, and every newly logged common record is one the handler does not claim. |
| DxfHandlers.DeclinedAreLogged | IO/DXF/DxfStreamReader/DxfObjectsSectionReader.cs:108-129 | For an object without extended data (and, for an XRecord, without its entry list), the common-code log gains exactly the records the handler declines, in stream order, and the extended data is unchanged. |
| DxfObjects.EmptyKnownObjectStops | IO/DXF/DxfStreamReader/DxfObjectsSectionReader.cs:108-129 | A SCALE object, read through the common-code loop, with no records of its own yields its template and stops on the next object's start record. |
| DxfHandlers.DictionaryRoundTrip | IO/DXF/DxfStreamReader/DxfObjectsSectionReader.cs:223-246 | A dictionary's entries written as 3/350 pairs with distinct, new names are read back as exactly those entries, in order. |
| DxfHandlers.DuplicateNameFails | IO/DXF/DxfStreamReader/DxfObjectsSectionReader.cs:236-238 | A code-3 record that repeats an existing entry name stops the object with DuplicateEntry at that record. |
| DxfDimAssoc.OsnapField | IO/DXF/DxfStreamReader/DxfObjectsSectionReader.cs:341-382 | A field record succeeds exactly when its value has the kind its code is read as. Each of the nine fields then takes the record's value when the record carries that field's code (10/20/30 one coordinate each, 40, 331, 72, 73, 91, 75) and keeps its value otherwise. |
| DxfDimAssoc.OsnapFields | IO/DXF/DxfStreamReader/DxfObjectsSectionReader.cs:331-385 | The point-reference loop stops on the next code 0 or 1. Each of the nine fields (10, 20, 30, 40, 331, 72, 73, 91, 75) ends with the value of the last record with its code in that span, or keeps its start value. |
| DxfDimAssoc.OsnapRefs | IO/DXF/DxfStreamReader/DxfObjectsSectionReader.cs:326-391 | Reading the point references up to the next start record adds one reference and one geometry handle per code-1 record. Earlier ones are kept. |
| DxfDimAssoc.OsnapRefsRead | IO/DXF/DxfStreamReader/DxfObjectsSectionReader.cs:326-391 | The references and geometry handles added are, in order, those of the code-1 records up to the object's end. Each is what the fields after its code-1 record make of a reference with default values. |
| DxfDimAssoc.RefsAtIndex | IO/DXF/DxfStreamReader/DxfObjectsSectionReader.cs:326-391 | The n-th reference and geometry handle are those read after the n-th code-1 record. |
| DxfDimAssoc.DimAssocLoop | IO/DXF/DxfStreamReader/DxfObjectsSectionReader.cs:281-315 | The dimension is the last 330 handle before the point references, and the loop returns directly after them. The flags it stores are stated by DimAssocLoopFlags. |
| DxfDimAssoc.AssocField | IO/DXF/DxfStreamReader/DxfObjectsSectionReader.cs:290-313 | 330, 90, 70 and 71 set the dimension handle, associativity, trans-space flag and rotated type. A value of the wrong kind is an error. Any other code changes nothing, and the references are untouched. |
| DxfDimAssoc.DimAssocLoopRefs | IO/DXF/DxfStreamReader/DxfObjectsSectionReader.cs:281-315 | The references the record loop gathers are, in order, those read at its code-1 records. |
| DxfDimAssoc.DimAssocLoopFlags | IO/DXF/DxfStreamReader/DxfObjectsSectionReader.cs:289-304 | The associativity flag (90), trans-space flag (70) and rotated dimension type (71) the loop stores are the last values given for them before the first code-1 record, or what they were before the loop. Every such record holds a value of its field's kind. |
| DxfDimAssoc.ReadDimAssoc | IO/DXF/DxfStreamReader/DxfObjectsSectionReader.cs:266-324 | The common data runs to the first subclass marker. The point references and geometry handles are present exactly when a code-1 record occurs, each then as many as those records. |
| DxfDimAssoc.ReadDimAssocRefs | IO/DXF/DxfStreamReader/DxfObjectsSectionReader.cs:266-324 | When present, the point references and geometry handles are, in order, those read after each code-1 record following the subclass marker. |
| DxfDimAssoc.ReadDimAssocFlags | IO/DXF/DxfStreamReader/DxfObjectsSectionReader.cs:266-324 | The dimension associativity holds the last associativity flag, trans-space flag and rotated dimension type given after its subclass marker and before its first code-1 record. A flag that no record gives stays unset. |
| DxfSortEnts.SortLoop | IO/DXF/DxfStreamReader/DxfObjectsSectionReader.cs:408-435 | The loop ends on the next start record. The owner is the last 330 handle. Pairs are only appended, each as (sort handle from code 5, entity from code 331). |
| DxfSortEnts.PairsRoundTrip | IO/DXF/DxfStreamReader/DxfObjectsSectionReader.cs:408-435 | Pairs written two records each, a sort handle (5) and an entity (331) in either order, are read back as exactly those (sort handle, entity) pairs, in order, after the pairs already read. |
| DxfSortEnts.TableLoop | IO/DXF/DxfStreamReader/DxfObjectsSectionReader.cs:410-435 | The record loop over an optional owner record and then pairs in either order yields exactly that owner and those pairs, and ends on the start record after them. |
| DxfSortEnts.PairInEitherOrder | IO/DXF/DxfStreamReader/DxfObjectsSectionReader.cs:412-432 | A pair closes whichever of its two records comes second: an entity record [331 b] followed by its sort-handle record [5 a], the order tables are written in, gives (a, b). |
| DxfSortEnts.ReadSortEnts | IO/DXF/DxfStreamReader/DxfObjectsSectionReader.cs:393-438 | The common data runs to the first subclass marker, and the block owner is the last 330 handle after it. |
| DxfSortEnts.ReadSortEntsRoundTrip | IO/DXF/DxfStreamReader/DxfObjectsSectionReader.cs:393-438 | A whole table reads back. The records before the subclass marker are logged as common data. An owner record (330) may follow the marker and then becomes the block owner; otherwise there is none. The pairs after that, each as a sort handle (5) and an entity (331) in either order, give exactly those pairs, in order. |
| DxfObjects.UnknownFrom | IO/DXF/DxfStreamReader/DxfObjectsSectionReader.cs:89-104 | The skip loop consumes the record after the start record before its first test and stops at the next start record after that. A placeholder template comes out exactly when one went in, which ReadObject arranges for names registered in the class table, whatever the keep-unknown flag. The flag only decides whether the records go to the common-code reader; without it the template is returned as it was. With it, the common data and extended data only grow, and the name and body are unchanged. |
| DxfObjects.ReadObject | IO/DXF/DxfStreamReader/DxfObjectsSectionReader.cs:52-106 | Every object read makes progress and ends on a start record. The name picks the reader: a dictionary body for DICTIONARY and ACDBDICTIONARYWDFLT, a layout body for LAYOUT, an XRecord body for XRECORD, a sort table for SORTENTSTABLE, an associativity for DIMASSOC, a plain body for the other known names, and the unknown-object placeholder otherwise. Known names give a template and no notification. Other names are announced, and yield a template exactly when registered in the class table. |
| DxfObjects.EmptyUnknownObjectSwallowsNext | IO/DXF/DxfStreamReader/DxfObjectsSectionReader.cs:89-102 | An unknown object with no records of its own takes the next start record as its own. |
| DxfObjects.SectionTurn | IO/DXF/DxfStreamReader/DxfObjectsSectionReader.cs:27-47 | One turn reads one object and moves strictly forward. A template that is not null is appended with the object's start record as its origin, and the object's notes are added. A null template adds only the notes. A failed object stops the section with its error unless failsafe is set. With failsafe, an ObjectError note at the failure is added and reading resumes at the next start record, and only running out of records stops the section. |
| DxfObjects.SectionLoop | IO/DXF/DxfStreamReader/DxfObjectsSectionReader.cs:19-50 | The section ends on the ENDSEC record. Every template came from an object read, in stream order. With failsafe set, only running out of records stops the section. Without failsafe, no object error is announced. |
| DxfObjects.SectionLoopExact | IO/DXF/DxfStreamReader/DxfObjectsSectionReader.cs:19-50 | The origins of a completed section are exactly the records the loop visits (following each object's end, or the next start record after a skipped failure) whose object yields a template. |
| DxfObjects.ReadSection | IO/DXF/DxfStreamReader/DxfObjectsSectionReader.cs:19-50 | The same guarantees apply from the first record after the section name. |
| DxfObjects.ReadSectionExact | IO/DXF/DxfStreamReader/DxfObjectsSectionReader.cs:19-50 | From the first record after the section name, the section hands over the template of every visited object that yields one, and no other. |
| Registry.TryGet | IO/Templates/DimAssocTemplate.cs:25-36 | A lookup finds an object exactly when the handle is registered with an object of the expected type. |
| Registry.Keep | IO/Templates/BlockVisibilityParameterTemplate.cs:24-29 | Filtering keeps each occurrence of a handle in the set and drops every other handle. |
| Registry.KeepConcat | IO/Templates/BlockVisibilityParameterTemplate.cs:24-29 | Filtering a joined list is joining the filtered parts, so the kept handles stay in list order. |
| BlockVisibility.Build | IO/Templates/BlockVisibilityParameterTemplate.cs:19-42 | The entities gain, after the old ones and in list order, each flat-list handle that resolves to an entity, once per occurrence. Each sub-block with a handle list gains, in that list's order, those of its handles that the flat list resolved. Other sub-blocks are unchanged. |
| BlockVisibility.SubBlocksShareFlatEntities | IO/Templates/BlockVisibilityParameterTemplate.cs:31-36 | Every entity a sub-block gains is one the parameter gained in the same build. |
| BlockVisibility.RegistryAloneAddsNothing | IO/Templates/BlockVisibilityParameterTemplate.cs:37-38 | A handle the registry knows but the flat list does not hold adds nothing to a sub-block. |
| DimAssocBuild.Build | IO/Templates/DimAssocTemplate.cs:21-39 | The dimension handle is resolved to a dimension, and the main and other geometry handles to entities. Each field changes exactly when its own lookup succeeds. |
| DimAssocBuild.EntityIsNotDimension | IO/Templates/DimAssocTemplate.cs:25-38 | A handle that names a plain entity does not resolve as the dimension, and the same handle as main geometry does. |
| DimensionBuild.DefaultTemplate | IO/Templates/CadDimensionTemplate.cs:17-45 | The template made before the class is known holds a placeholder whose object type is INVALID. |
| DimensionBuild.Build | IO/Templates/CadDimensionTemplate.cs:21-36 | The style and the block are each set exactly when their own lookup finds them. Otherwise the dimension is what the common step made. |
| DimensionBuild.SetDimensionFlags | IO/Templates/CadDimensionTemplate.cs:47-56 | Flag 128 always sets the text-at-user-location field. Flag 64 sets the X-type field only on an ordinate dimension. Nothing else changes. |
| DimensionBuild.FlagsRoundTrip | IO/Templates/CadDimensionTemplate.cs:47-56 | Setting the flags written for a dimension restores its two flag fields, whatever the type bits. |
| DimensionBuild.SetDimensionObject | IO/Templates/CadDimensionTemplate.cs:58-97 | The new object takes over the old one's identity and common fields and keeps its own class, style and block. From an aligned or linear dimension to a linear one the two definition points carry over. |
| DimensionBuild.FlagsAcrossReplacement | IO/Templates/CadDimensionTemplate.cs:47-97 | After the placeholder is replaced by an ordinate dimension, the user-location flag survives but the X-type flag is the new object's own. |
| HatchBuild.Build | IO/Templates/CadHatchTemplate.cs:15-26 | After the common step, the hatch holds its earlier paths unchanged followed by one path per template, in template order, each the template's path as its build made it. |

## Left out

- StreamIO constructors, `Position`, `Length`, `Dispose`, the async and `CancellationToken` variants, and `Write(string)` are not modelled: they are file handles, stream copies and tasks. What the constructors decide about writing is the stream's `growable` flag. `ReadBytesAsync` behaves as `ReadBytes`.
- The text encodings of `ReadString` are a parameter, `decodeText`.
- Native byte order is taken to be little-endian. `float` and `double` are carried as their bit patterns (`Single`/`Double` kinds of width 4 and 8); no floating-point arithmetic is modelled.
- The underlying stream's `Read` is assumed to hand over all available bytes in one call, as a memory stream does.
- The shared static read buffers (`ByteArray2`, ...) and the array pool are not modelled: each read uses a fresh buffer.
- The field maps (`DxfMap`) and `tryAssignCurrentValue` are the `inMap` parameter of `Env`. The class table's `TryGetByName` is a set of names. These collaborators are not part of this model.
- `readCommonCodes` and `readCommonObjectData` are modelled from how the reader uses them: extended data starts with 1001, and common object data runs up to the first subclass marker. Their field assignments are not modelled.
- The notifications for unhandled codes inside the DIMASSOC and SORTENTSTABLE loops are dropped. Only the per-object notifications of the section loop are kept.
- The typed value parsing of the text reader (which code gives which value type) is given by the records' `Value`.
- The base template's `Build`, the table lookup (`getTableReference`) and the boundary path template's `Build` are function parameters.
- DxfDimAssoc.ReadDimAssoc keeps the list of geometry handles. The dimension associativity template's build step takes one optional main-geometry handle; how that list reaches the template is not part of this model.
- BlockVisibility.Build identifies a sub-block by its position in the parameter's list rather than by object identity.
- DimensionBuild.SetDimensionObject treats `DimensionLinear` as part of the aligned family, as the source's type test does for a class derived from `DimensionAligned`.
- The entity classes (DimensionArc, DimensionRadialLarge, BookColor), DwgColorTemplate and LayersTable are context and are not modelled.
- Registry.Keep states the occurrence counts of the filtered list in its own contract; list order is stated separately by Registry.KeepConcat.
- DxfHandlers.DeclinedAreLogged states the exact common-code log only for objects without extended data or an XRecord entry list; with them, ObjectCodes states that every logged record is one the handler does not claim, not which declined records the extended data absorbs.

## Findings

| source | as written | input that shows it | evidently intended | confidence | as-written member | corrected member |
|---|---|---|---|---|---|---|
| CSUtilities/CSUtilities/Converters/InverseConverter.cs:112-119 | The offset overloads call `fullInverse(arr, offset)`. That fills a buffer of `arr.Length` bytes from `arr[offset]` downwards, so it throws unless the offset is the last index. In that case it returns a copy of the array in its original order, and the first bytes are decoded without inversion. | `ToInt32(GetBytes(1), 0)` throws IndexOutOfRange, and `ToInt32(GetBytes(1), 3)` returns 16777216. | Decode the `width` bytes starting at `offset` in big-endian order, so that the value written by `GetBytes` is read back. | not executed | Codec.OffsetDecodeCounterexample | Codec.ToValueAtIntended |

=== FILE: build_dimassoc.dfy ===
/** The build step of the dimension-associativity template: three optional
    handles, each resolved on its own. */
module DimAssocBuild {
  import opened Cad
  import opened Registry

  /** The dimension associativity's links: the dimension it belongs to and
      the main and other geometry objects. */
  datatype Associativity = Associativity(header: Header, dimensionObject: Option<Handle>,
                                         mainObject: Option<Handle>, otherObject: Option<Handle>)

  datatype DimAssocTemplate = DimAssocTemplate(assoc: Associativity, dimensionHandle: Option<Handle>,
                                               mainGeometryHandle: Option<Handle>, otherGeometryHandle: Option<Handle>)

  /** Whether a stored handle names a registered object of the expected type. */
  predicate Resolves(reg: Registry, h: Option<Handle>, e: Expected) {
    h.Some? && h.value in reg && Fits(reg[h.value], e)
  }

  /** Build: the common step, then the dimension handle is resolved to a
      dimension and the two geometry handles to entities. A lookup that
      fails leaves its field as it was; each field depends on its own handle
      only. */
  function Build(t: DimAssocTemplate, reg: Registry, baseBuild: (Header, Registry) -> Header): (r: Associativity)
    ensures r.header == baseBuild(t.assoc.header, reg)
    ensures r.dimensionObject == if Resolves(reg, t.dimensionHandle, ADimension) then t.dimensionHandle else t.assoc.dimensionObject
    ensures r.mainObject == if Resolves(reg, t.mainGeometryHandle, AnEntity) then t.mainGeometryHandle else t.assoc.mainObject
    ensures r.otherObject == if Resolves(reg, t.otherGeometryHandle, AnEntity) then t.otherGeometryHandle else t.assoc.otherObject
  {
    var a := t.assoc.(header := baseBuild(t.assoc.header, reg));
    var a := match TryGet(reg, t.dimensionHandle, ADimension) case Some(d) => a.(dimensionObject := Some(d)) case None => a;
    var a := match TryGet(reg, t.mainGeometryHandle, AnEntity) case Some(m) => a.(mainObject := Some(m)) case None => a;
    match TryGet(reg, t.otherGeometryHandle, AnEntity) case Some(o) => a.(otherObject := Some(o)) case None => a
  }

  /** A dimension handle that names a plain entity does not resolve, while
      the same handle as main geometry does. */
  lemma EntityIsNotDimension(t: DimAssocTemplate, reg: Registry, baseBuild: (Header, Registry) -> Header, h: Handle)
    requires h in reg && reg[h] == OtherEntityObj
    requires t.dimensionHandle == Some(h) && t.mainGeometryHandle == Some(h)
    ensures Build(t, reg, baseBuild).dimensionObject == t.assoc.dimensionObject
    ensures Build(t, reg, baseBuild).mainObject == Some(h)
  {
  }
}

=== FILE: build_dimension.dfy ===
/** The dimension template: its build step, the flags read from group code
    70, and the replacement of the placeholder by the concrete dimension. */
module DimensionBuild {
  import opened Cad
  import opened Registry

  /** The concrete dimension classes, and the placeholder a template holds
      until the concrete class is known. A linear dimension is also an
      aligned one (it derives from it). */
  datatype DimKind =
    | Placeholder | Aligned | Linear | Radius | Diameter | Angular2Line | Angular3Point | Ordinate
    | ArcLength | RadialLarge

  predicate IsAlignedFamily(k: DimKind) {
    k == Aligned || k == Linear
  }

  /** The object types the classes report. */
  datatype ObjectType =
    | Invalid | Unlisted | DimensionLinear | DimensionAligned | DimensionRadius | DimensionDiameter
    | DimensionAng2Ln | DimensionAng3Pt | DimensionOrdinate

  function TypeOf(k: DimKind): ObjectType {
    match k
    case Placeholder => Invalid
    case Aligned => DimensionAligned
    case Linear => DimensionLinear
    case Radius => DimensionRadius
    case Diameter => DimensionDiameter
    case Angular2Line => DimensionAng2Ln
    case Angular3Point => DimensionAng3Pt
    case Ordinate => DimensionOrdinate
    case ArcLength => Unlisted
    case RadialLarge => Unlisted
  }

  /** A dimension entity: the common header, the entity fields, the
      dimension fields, and the fields of the aligned/linear and ordinate
      classes (meaningful only for those kinds). */
  datatype Dimension = Dimension(
    kind: DimKind, header: Header,
    layer: Option<Handle>, linetype: Option<Handle>, color: int, lineWeight: int, linetypeScale: Double,
    isInvisible: bool, transparency: int,
    version: int, definitionPoint: XYZ, textMiddlePoint: XYZ, insertionPoint: XYZ, normal: XYZ,
    isTextUserDefinedLocation: bool, attachmentPoint: int, lineSpacingStyle: int, lineSpacingFactor: Double,
    text: string, textRotation: Double, horizontalDirection: Double,
    style: Option<Handle>, block: Option<Handle>,
    firstPoint: XYZ, secondPoint: XYZ, extLineRotation: Double,
    isOrdinateTypeX: bool)

  /** The bit pattern of the double 1.0. */
  const OneDouble: Double := Double(0x3FF0_0000_0000_0000)

  /** A freshly constructed dimension of a kind: everything zero, empty or
      absent, except the normal, which is the Z axis. */
  function NewDimension(k: DimKind): (d: Dimension)
    ensures d.kind == k && d.style.None? && d.block.None? && d.normal == XYZ(ZeroDouble, ZeroDouble, OneDouble)
  {
    Dimension(k, Header(0, None, None, []), None, None, 0, 0, ZeroDouble, false, 0,
              0, ZeroXYZ, ZeroXYZ, ZeroXYZ, XYZ(ZeroDouble, ZeroDouble, OneDouble),
              false, 0, 0, ZeroDouble, "", ZeroDouble, ZeroDouble, None, None,
              ZeroXYZ, ZeroXYZ, ZeroDouble, false)
  }

  /** The template: the dimension being read, and the style and block named
      by handle and/or by name. */
  datatype DimensionTemplate = DimensionTemplate(dim: Dimension, styleHandle: Option<Handle>, blockHandle: Option<Handle>,
                                                 blockName: Option<string>, styleName: Option<string>)

  /** The template made before the concrete class is known. */
  function DefaultTemplate(): (t: DimensionTemplate)
    ensures TypeOf(t.dim.kind) == Invalid
    ensures t.styleHandle.None? && t.blockHandle.None? && t.blockName.None? && t.styleName.None?
  {
    DimensionTemplate(NewDimension(Placeholder), None, None, None, None)
  }

  /** The table lookup of a template (getTableReference): by handle, or by
      name, for an object of the given table's type. */
  type TableLookup = (Registry, Option<Handle>, Option<string>, ObjKind) -> Option<Handle>

  /** Build: the entity's common build step, then the style and the block,
      each set only when its own lookup finds it. */
  function Build(t: DimensionTemplate, reg: Registry, baseBuild: (Dimension, Registry) -> Dimension,
                 lookup: TableLookup): (r: Dimension)
    ensures var s := lookup(reg, t.styleHandle, t.styleName, DimensionStyleObj);
            r.style == if s.Some? then s else baseBuild(t.dim, reg).style
    ensures var b := lookup(reg, t.blockHandle, t.blockName, BlockRecordObj);
            r.block == if b.Some? then b else baseBuild(t.dim, reg).block
    ensures r.(style := baseBuild(t.dim, reg).style, block := baseBuild(t.dim, reg).block) == baseBuild(t.dim, reg)
  {
    var d := baseBuild(t.dim, reg);
    var d := match lookup(reg, t.styleHandle, t.styleName, DimensionStyleObj) case Some(s) => d.(style := Some(s)) case None => d;
    match lookup(reg, t.blockHandle, t.blockName, BlockRecordObj) case Some(b) => d.(block := Some(b)) case None => d
  }

  // ----- Flags of group code 70 (DimensionType) -----

  /** The flag bits of the dimension type: 64 marks an ordinate dimension's
      X type, 128 a text placed at a user-defined location. The low bits
      hold the dimension's type and the block-reference bit. */
  const OrdinateTypeXFlag: bv32 := 64
  const TextUserDefinedLocationFlag: bv32 := 128

  predicate HasFlag(flags: bv32, flag: bv32) {
    flags & flag == flag
  }

  /** SetDimensionFlags: the user-defined-location flag always; the X-type
      flag only on an ordinate dimension. Nothing else changes. */
  function SetDimensionFlags(t: DimensionTemplate, flags: bv32): (r: DimensionTemplate)
    ensures r.dim.isTextUserDefinedLocation == HasFlag(flags, TextUserDefinedLocationFlag)
    ensures r.dim.kind == Ordinate ==> r.dim.isOrdinateTypeX == HasFlag(flags, OrdinateTypeXFlag)
    ensures r.dim.kind != Ordinate ==> r.dim.isOrdinateTypeX == t.dim.isOrdinateTypeX
    ensures r == t.(dim := t.dim.(isTextUserDefinedLocation := r.dim.isTextUserDefinedLocation,
                                  isOrdinateTypeX := r.dim.isOrdinateTypeX))
  {
    var d := t.dim;
    var d := if d.kind == Ordinate then d.(isOrdinateTypeX := HasFlag(flags, OrdinateTypeXFlag)) else d;
    t.(dim := d.(isTextUserDefinedLocation := HasFlag(flags, TextUserDefinedLocationFlag)))
  }

  /** The flags a writer emits for a dimension: its type bits with the two
      flag bits set from the dimension's fields. */
  function EncodeFlags(typeBits: bv32, d: Dimension): (f: bv32)
    requires typeBits < 64
  {
    typeBits | (if d.isOrdinateTypeX then OrdinateTypeXFlag else 0)
             | (if d.isTextUserDefinedLocation then TextUserDefinedLocationFlag else 0)
  }

  /** Setting the flags a writer emitted for `d` gives a dimension of the
      same kind the two flag fields of `d`, whatever the type bits. */
  lemma FlagsRoundTrip(t: DimensionTemplate, typeBits: bv32, d: Dimension)
    requires typeBits < 64 && t.dim.kind == d.kind
    ensures SetDimensionFlags(t, EncodeFlags(typeBits, d)).dim.isTextUserDefinedLocation == d.isTextUserDefinedLocation
    ensures d.kind == Ordinate ==> SetDimensionFlags(t, EncodeFlags(typeBits, d)).dim.isOrdinateTypeX == d.isOrdinateTypeX
  {
    var f := EncodeFlags(typeBits, d);
    assert HasFlag(f, TextUserDefinedLocationFlag) == d.isTextUserDefinedLocation;
    assert HasFlag(f, OrdinateTypeXFlag) == d.isOrdinateTypeX;
  }

  // ----- Replacing the dimension object -----

  /** The fields SetDimensionObject carries over from the old object. */
  predicate CarriesOver(r: Dimension, prev: Dimension) {
    r.header.handle == prev.header.handle && r.header.owner == prev.header.owner &&
    r.header.xDictionary == prev.header.xDictionary &&
    r.color == prev.color && r.lineWeight == prev.lineWeight && r.linetypeScale == prev.linetypeScale &&
    r.isInvisible == prev.isInvisible && r.transparency == prev.transparency &&
    r.version == prev.version && r.definitionPoint == prev.definitionPoint &&
    r.textMiddlePoint == prev.textMiddlePoint && r.insertionPoint == prev.insertionPoint &&
    r.normal == prev.normal && r.isTextUserDefinedLocation == prev.isTextUserDefinedLocation &&
    r.attachmentPoint == prev.attachmentPoint && r.lineSpacingStyle == prev.lineSpacingStyle &&
    r.lineSpacingFactor == prev.lineSpacingFactor && r.text == prev.text &&
    r.textRotation == prev.textRotation && r.horizontalDirection == prev.horizontalDirection
  }

  /** The fields the new object keeps as they were: its class, reactors,
      layer, line type, style, block, its own extension-line rotation and
      X-type flag. */
  predicate KeepsOwn(r: Dimension, n: Dimension) {
    r.kind == n.kind && r.header.reactors == n.header.reactors &&
    r.layer == n.layer && r.linetype == n.linetype && r.style == n.style && r.block == n.block &&
    r.extLineRotation == n.extLineRotation && r.isOrdinateTypeX == n.isOrdinateTypeX
  }

  /** SetDimensionObject: the new object takes over the old one's identity
      and its common and dimension fields, and replaces it in the template.
      From an aligned (or linear) dimension to a linear one the two
      definition points come along too. */
  function SetDimensionObject(t: DimensionTemplate, n: Dimension): (r: DimensionTemplate)
    ensures r == t.(dim := r.dim)
    ensures CarriesOver(r.dim, t.dim) && KeepsOwn(r.dim, n)
    ensures IsAlignedFamily(t.dim.kind) && n.kind == Linear ==>
              r.dim.firstPoint == t.dim.firstPoint && r.dim.secondPoint == t.dim.secondPoint
    ensures !(IsAlignedFamily(t.dim.kind) && n.kind == Linear) ==>
              r.dim.firstPoint == n.firstPoint && r.dim.secondPoint == n.secondPoint
  {
    var o := t.dim;
    var d := n.(header := n.header.(handle := o.header.handle, owner := o.header.owner, xDictionary := o.header.xDictionary),
                color := o.color, lineWeight := o.lineWeight, linetypeScale := o.linetypeScale,
                isInvisible := o.isInvisible, transparency := o.transparency,
                version := o.version, definitionPoint := o.definitionPoint, textMiddlePoint := o.textMiddlePoint,
                insertionPoint := o.insertionPoint, normal := o.normal,
                isTextUserDefinedLocation := o.isTextUserDefinedLocation, attachmentPoint := o.attachmentPoint,
                lineSpacingStyle := o.lineSpacingStyle, lineSpacingFactor := o.lineSpacingFactor,
                text := o.text, textRotation := o.textRotation, horizontalDirection := o.horizontalDirection);
    var d := if IsAlignedFamily(o.kind) && n.kind == Linear
             then d.(firstPoint := o.firstPoint, secondPoint := o.secondPoint, extLineRotation := d.extLineRotation)
             else d;
    t.(dim := d)
  }

  /** The flags set on the placeholder survive its replacement only in part:
      the user-defined-location flag is carried over, while the X-type flag,
      never set on a placeholder, is the new ordinate dimension's own. */
  lemma FlagsAcrossReplacement(flags: bv32, n: Dimension)
    requires n.kind == Ordinate
    ensures var r := SetDimensionObject(SetDimensionFlags(DefaultTemplate(), flags), n);
            r.dim.isTextUserDefinedLocation == HasFlag(flags, TextUserDefinedLocationFlag) &&
            r.dim.isOrdinateTypeX == n.isOrdinateTypeX && TypeOf(r.dim.kind) == DimensionOrdinate
  {
  }
}

=== FILE: build_hatch.dfy ===
/** The hatch template's build step: the boundary paths of the path
    templates are appended to the hatch, each then built in place. */
module HatchBuild {
  import opened Registry

  /** A boundary path. Only its identity and its built state matter here. */
  datatype BoundaryPath = BoundaryPath(id: nat, built: bool)

  datatype Hatch = Hatch(header: Header, paths: seq<BoundaryPath>)

  /** A path template: the path it fills. */
  datatype PathTemplate = PathTemplate(path: BoundaryPath)

  /** Build. A path template's build works on the path object that was just
      appended, so the hatch ends up holding the built path. */
  method Build(h: Hatch, templates: seq<PathTemplate>, reg: Registry, baseBuild: (Header, Registry) -> Header,
               pathBuild: (BoundaryPath, Registry) -> BoundaryPath)
    returns (r: Hatch)
    ensures r.header == baseBuild(h.header, reg)
    ensures |r.paths| == |h.paths| + |templates|
    ensures r.paths[..|h.paths|] == h.paths
    ensures forall k :: 0 <= k < |templates| ==> r.paths[|h.paths| + k] == pathBuild(templates[k].path, reg)
  {
    r := h.(header := baseBuild(h.header, reg));
    var k := 0;
    while k < |templates|
      invariant 0 <= k <= |templates|
      invariant r.header == baseBuild(h.header, reg)
      invariant |r.paths| == |h.paths| + k
      invariant r.paths[..|h.paths|] == h.paths
      invariant forall m :: 0 <= m < k ==> r.paths[|h.paths| + m] == pathBuild(templates[m].path, reg)
    {
      r := r.(paths := r.paths + [templates[k].path]);
      var last := |r.paths| - 1;
      r := r.(paths := r.paths[..last] + [pathBuild(r.paths[last], reg)]);
      k := k + 1;
    }
  }
}

=== FILE: build_visibility.dfy ===
/** The build step of the block visibility parameter template: the flat
    entity list is resolved first, then each sub-block takes its entities
    from what the flat list resolved. */
module BlockVisibility {
  import opened Cad
  import opened Registry

  /** One named sub-block and the entities it shows. */
  datatype SubBlock = SubBlock(name: string, entities: seq<Handle>)

  datatype Parameter = Parameter(header: Header, entities: seq<Handle>, subBlocks: seq<SubBlock>)

  /** The template: the parameter, the handles of all its entities, and for
      some sub-blocks (by position in the parameter's list) their handles. */
  datatype VisibilityTemplate = VisibilityTemplate(param: Parameter, totalEntityHandles: seq<Handle>,
                                                   subBlockHandles: map<nat, seq<Handle>>)

  /** The local map of the build step: the flat-list handles that resolved. */
  function ResolvedFlat(reg: Registry, total: seq<Handle>): (s: set<Handle>)
    ensures forall h :: h in s <==> h in total && h in Entities(reg)
  {
    set h | h in total && h in Entities(reg)
  }

  /** Build: the common step on the header, then every flat-list handle that
      resolves to an entity is appended to the parameter's entities (once per
      occurrence, in list order), then each sub-block that has a handle list
      appends, in that list's order, the handles found in the local map. A
      handle the flat list did not resolve adds nothing, even when the
      registry knows it. */
  function Build(t: VisibilityTemplate, reg: Registry, baseBuild: (Header, Registry) -> Header): (r: Parameter)
    ensures r.header == baseBuild(t.param.header, reg)
    ensures r.entities == t.param.entities + Keep(Entities(reg), t.totalEntityHandles)
    ensures t.param.entities <= r.entities
    ensures forall h :: multiset(r.entities)[h] ==
              multiset(t.param.entities)[h] + (if h in Entities(reg) then multiset(t.totalEntityHandles)[h] else 0)
    ensures |r.subBlocks| == |t.param.subBlocks|
    ensures forall k :: 0 <= k < |r.subBlocks| && k !in t.subBlockHandles ==> r.subBlocks[k] == t.param.subBlocks[k]
    ensures forall k :: 0 <= k < |r.subBlocks| && k in t.subBlockHandles ==>
              r.subBlocks[k].name == t.param.subBlocks[k].name &&
              r.subBlocks[k].entities
                == t.param.subBlocks[k].entities + Keep(ResolvedFlat(reg, t.totalEntityHandles), t.subBlockHandles[k]) &&
              t.param.subBlocks[k].entities <= r.subBlocks[k].entities &&
              forall h :: multiset(r.subBlocks[k].entities)[h] ==
                multiset(t.param.subBlocks[k].entities)[h] +
                (if h in t.totalEntityHandles && h in Entities(reg) then multiset(t.subBlockHandles[k])[h] else 0)
  {
    var header := baseBuild(t.param.header, reg);
    var local := ResolvedFlat(reg, t.totalEntityHandles);
    var added := Keep(Entities(reg), t.totalEntityHandles);
    var subs := t.param.subBlocks;
    var subs' := seq(|subs|, k requires 0 <= k < |subs| =>
                       if k in t.subBlockHandles
                       then subs[k].(entities := subs[k].entities + Keep(local, t.subBlockHandles[k]))
                       else subs[k]);
    Parameter(header, t.param.entities + added, subs')
  }

  /** Every entity a sub-block gains is one the parameter gained in the same
      build: sub-blocks share the instances of the flat list. */
  lemma {:induction false} SubBlocksShareFlatEntities(t: VisibilityTemplate, reg: Registry, baseBuild: (Header, Registry) -> Header,
                                                      k: nat, h: Handle)
    requires k < |t.param.subBlocks| && k in t.subBlockHandles
    requires multiset(Build(t, reg, baseBuild).subBlocks[k].entities)[h] > multiset(t.param.subBlocks[k].entities)[h]
    ensures h in Keep(Entities(reg), t.totalEntityHandles)
    ensures multiset(Build(t, reg, baseBuild).entities)[h] > multiset(t.param.entities)[h]
  {
    var r := Build(t, reg, baseBuild);
    assert h in t.totalEntityHandles && h in Entities(reg);
    KeepMember(Entities(reg), t.totalEntityHandles, h);
    assert multiset(t.totalEntityHandles)[h] > 0;
  }

  /** A handle that only the registry knows (it is not in the flat list)
      adds nothing to a sub-block. */
  lemma RegistryAloneAddsNothing(t: VisibilityTemplate, reg: Registry, baseBuild: (Header, Registry) -> Header,
                                 k: nat, h: Handle)
    requires k < |t.param.subBlocks| && h in reg && h !in t.totalEntityHandles
    ensures multiset(Build(t, reg, baseBuild).subBlocks[k].entities)[h] == multiset(t.param.subBlocks[k].entities)[h]
  {
  }
}

=== FILE: bytes.dfy ===
/** Bytes, byte-sequence reversal and the little-endian integer layout used
    as the platform's native encoding of fixed-width primitives. */
module Bytes {

  type byte = x: int | 0 <= x < 256

  /** 256^n: the number of distinct values an n-byte field can hold. */
  function Pow256(n: nat): (r: nat)
    ensures r >= 1
    ensures n >= 1 ==> r >= 256 && r % 2 == 0
  {
    if n == 0 then 1 else 256 * Pow256(n - 1)
  }

  /** Byte-order reversal: element j of the input lands at position |s|-1-j. */
  function Reverse<T>(s: seq<T>): (r: seq<T>)
    ensures |r| == |s|
    ensures forall j :: 0 <= j < |s| ==> r[j] == s[|s| - 1 - j]
  {
    if |s| == 0 then [] else Reverse(s[1..]) + [s[0]]
  }

  /** Reversal is an involution. */
  lemma ReverseInvolution<T>(s: seq<T>)
    ensures Reverse(Reverse(s)) == s
  {
    var r := Reverse(Reverse(s));
    assert |r| == |s|;
    forall j | 0 <= j < |s|
      ensures r[j] == s[j]
    {
      assert r[j] == Reverse(s)[|s| - 1 - j];
    }
  }

  /** Reversal distributes over concatenation with the parts swapped. */
  lemma ReverseConcat<T>(a: seq<T>, b: seq<T>)
    ensures Reverse(a + b) == Reverse(b) + Reverse(a)
  {
    var l := Reverse(a + b);
    var r := Reverse(b) + Reverse(a);
    assert |l| == |r|;
    forall j | 0 <= j < |l|
      ensures l[j] == r[j]
    {
      if j < |b| {
        assert r[j] == b[|b| - 1 - j];
      } else {
        assert r[j] == Reverse(a)[j - |b|];
      }
    }
  }

  /** Least-significant byte first: the native layout of an unsigned
      n-byte value. */
  function LeEncode(v: nat, n: nat): (r: seq<byte>)
    requires v < Pow256(n)
    ensures |r| == n
    decreases n
  {
    if n == 0 then []
    else
      assert v / 256 < Pow256(n - 1);
      [v % 256] + LeEncode(v / 256, n - 1)
  }

  /** The unsigned value of a least-significant-byte-first field. */
  function LeDecode(bs: seq<byte>): (r: nat)
    ensures r < Pow256(|bs|)
  {
    if |bs| == 0 then 0 else bs[0] + 256 * LeDecode(bs[1..])
  }

  lemma {:induction false} LeDecodeEncode(v: nat, n: nat)
    requires v < Pow256(n)
    ensures LeDecode(LeEncode(v, n)) == v
    decreases n
  {
    if n > 0 {
      assert v / 256 < Pow256(n - 1);
      var bs := LeEncode(v, n);
      assert bs[1..] == LeEncode(v / 256, n - 1);
      LeDecodeEncode(v / 256, n - 1);
    }
  }

  lemma {:induction false} LeEncodeDecode(bs: seq<byte>)
    ensures LeEncode(LeDecode(bs), |bs|) == bs
  {
    if |bs| > 0 {
      var v := LeDecode(bs);
      assert v % 256 == bs[0];
      assert v / 256 == LeDecode(bs[1..]);
      LeEncodeDecode(bs[1..]);
    }
  }
}

=== FILE: cad.dfy ===
/** Leaf value types shared by the reader and the build steps: handles,
    opaque doubles and points, and the optional value. */
module Cad {

  /** A document-wide object identity (an unsigned 64-bit value in the
      library; only its identity matters here). */
  type Handle = nat

  /** A double-precision value, carried by its bit pattern and only copied. */
  datatype Double = Double(bits: nat)

  datatype XYZ = XYZ(x: Double, y: Double, z: Double)

  const ZeroDouble: Double := Double(0)

  const ZeroXYZ: XYZ := XYZ(ZeroDouble, ZeroDouble, ZeroDouble)

  datatype Option<+T> = None | Some(value: T)
}

=== FILE: codec.dfy ===
/** The fixed-width primitive codec: the platform (native) layout of the nine
    supported primitive kinds, and the byte-reversing converter that turns it
    into the opposite byte order (InverseConverter). */
module Codec {
  import opened Bytes

  /** The nine primitive kinds the converters support. `Char` is a UTF-16
      code unit; `Single` and `Double` are carried by their IEEE bit pattern
      and are never interpreted arithmetically. */
  datatype Kind = Char | Int16 | UInt16 | Int32 | UInt32 | Int64 | UInt64 | Single | Double

  /** Width in bytes of the native encoding of a kind. */
  function Width(k: Kind): (w: nat)
    ensures w == 2 || w == 4 || w == 8
  {
    match k
    case Char => 2
    case Int16 => 2
    case UInt16 => 2
    case Int32 => 4
    case UInt32 => 4
    case Single => 4
    case Int64 => 8
    case UInt64 => 8
    case Double => 8
  }

  predicate IsSigned(k: Kind) {
    k == Int16 || k == Int32 || k == Int64
  }

  /** Half of the value space of a kind: the bound of its signed range. */
  function Half(k: Kind): (h: nat)
    ensures 2 * h == Pow256(Width(k))
  {
    Pow256(Width(k)) / 2
  }

  /** The values a kind can hold: two's complement range for the signed
      integers, the unsigned range (code unit / bit pattern) otherwise. */
  predicate InRange(k: Kind, v: int) {
    if IsSigned(k) then -(Half(k) as int) <= v < Half(k) else 0 <= v < Pow256(Width(k))
  }

  /** The unsigned bit pattern of a value (two's complement for signed kinds). */
  function Bits(k: Kind, v: int): (u: nat)
    requires InRange(k, v)
    ensures u < Pow256(Width(k))
  {
    if v < 0 then v + Pow256(Width(k)) else v
  }

  /** The value a bit pattern stands for. */
  function FromBits(k: Kind, u: nat): (v: int)
    requires u < Pow256(Width(k))
    ensures InRange(k, v)
  {
    if IsSigned(k) && u >= Half(k) then u - Pow256(Width(k)) else u
  }

  lemma FromBitsInverse(k: Kind, v: int)
    requires InRange(k, v)
    ensures FromBits(k, Bits(k, v)) == v
  {
  }

  /** The native (little-endian) encoding of a value, as BitConverter.GetBytes
      produces it. */
  function NativeEncode(k: Kind, v: int): (r: seq<byte>)
    requires InRange(k, v)
    ensures |r| == Width(k)
  {
    LeEncode(Bits(k, v), Width(k))
  }

  /** The native decoding of exactly one field, as BitConverter.ToXxx(arr, 0)
      reads it. */
  function NativeDecode(k: Kind, bs: seq<byte>): (v: int)
    requires |bs| == Width(k)
    ensures InRange(k, v)
  {
    FromBits(k, LeDecode(bs))
  }

  /** Native decoding undoes native encoding. */
  lemma NativeRoundTrip(k: Kind, v: int)
    requires InRange(k, v)
    ensures NativeDecode(k, NativeEncode(k, v)) == v
  {
    LeDecodeEncode(Bits(k, v), Width(k));
  }

  /** Native encoding undoes native decoding: every byte pattern of the right
      width is the encoding of exactly one value. */
  lemma NativeEncodeDecode(k: Kind, bs: seq<byte>)
    requires |bs| == Width(k)
    ensures NativeEncode(k, NativeDecode(k, bs)) == bs
  {
    LeEncodeDecode(bs);
  }

  datatype ConvError = TooShort | IndexOutOfRange | NotSupported

  datatype Result<T> = Ok(value: T) | Err(error: ConvError)

  /** The outcome of an InverseConverter decode: the decoded value (or the
      failure) together with the caller's buffer as the call left it, since
      the whole-buffer overloads reverse that buffer in place. */
  datatype Decoded = Decoded(result: Result<int>, buffer: seq<byte>)

  // ----- InverseConverter -----

  /** GetBytes(value) for each of the nine kinds: the native encoding with its
      bytes reversed. */
  function GetBytes(k: Kind, v: int): (r: seq<byte>)
    requires InRange(k, v)
    ensures |r| == Width(k)
    ensures forall j :: 0 <= j < Width(k) ==> r[j] == NativeEncode(k, v)[Width(k) - 1 - j]
  {
    Reverse(NativeEncode(k, v))
  }

  /** ToChar/ToInt16/.../ToSingle(arr): reverses the caller's whole buffer in
      place, then decodes the first Width(k) bytes of the reversed buffer, which
      are the last Width(k) bytes of the original in reverse order. A buffer
      shorter than the kind fails in the decode, after the reversal. */
  function ToValue(k: Kind, arr: seq<byte>): (r: Decoded)
    ensures |r.buffer| == |arr|
    ensures forall j :: 0 <= j < |arr| ==> r.buffer[j] == arr[|arr| - 1 - j]
    ensures r.result.Ok? <==> |arr| >= Width(k)
    ensures r.result.Err? ==> r.result.error == TooShort
    ensures r.result.Ok? ==> r.result.value == NativeDecode(k, Reverse(arr[|arr| - Width(k)..]))
  {
    var inverse := Reverse(arr);
    if |inverse| < Width(k) then Decoded(Err(TooShort), inverse)
    else
      assert inverse[..Width(k)] == Reverse(arr[|arr| - Width(k)..]);
      Decoded(Ok(NativeDecode(k, inverse[..Width(k)])), inverse)
  }

  /** Decoding what GetBytes produced returns the value, and leaves the
      caller's buffer holding the native encoding. */
  lemma {:induction false} GetBytesRoundTrip(k: Kind, v: int)
    requires InRange(k, v)
    ensures ToValue(k, GetBytes(k, v)) == Decoded(Ok(v), NativeEncode(k, v))
  {
    var bs := GetBytes(k, v);
    ReverseInvolution(NativeEncode(k, v));
    assert bs[|bs| - Width(k)..] == bs;
    NativeRoundTrip(k, v);
  }

  /** Every decode through the converter is a GetBytes image: encoding the
      decoded value gives back the bytes that were read. */
  lemma {:induction false} ToValueRoundTrip(k: Kind, arr: seq<byte>)
    requires |arr| == Width(k)
    ensures ToValue(k, arr).result.Ok?
    ensures GetBytes(k, ToValue(k, arr).result.value) == arr
  {
    var rev := Reverse(arr);
    assert arr[|arr| - Width(k)..] == arr;
    NativeEncodeDecode(k, rev);
    ReverseInvolution(arr);
  }

  /** fullInverse(arr): reverses the caller's buffer in place, reading from a
      copy taken before the first write. */
  method FullInverse(arr: array<byte>)
    modifies arr
    ensures arr[..] == Reverse(old(arr[..]))
  {
    var inverse := arr[..];
    var i := arr.Length - 1;
    var j := 0;
    while j < arr.Length
      invariant 0 <= j <= arr.Length && i == arr.Length - 1 - j
      invariant forall p :: i < p < arr.Length ==> arr[p] == inverse[arr.Length - 1 - p]
      invariant forall p :: 0 <= p <= i ==> arr[p] == inverse[p]
    {
      arr[i] := inverse[j];
      i := i - 1;
      j := j + 1;
    }
  }

  /** The offset overloads' private helper fullInverse(arr, offset), one loop
      step per call: position |arr|-1-j of a fresh buffer receives arr[offset-j],
      and the first index outside arr raises IndexOutOfRange. */
  function InverseFrom(arr: seq<byte>, offset: int, j: nat, inverse: seq<byte>): (r: Result<seq<byte>>)
    requires j <= |arr| == |inverse|
    ensures r.Ok? <==> j == |arr| || (offset - j < |arr| && offset >= |arr| - 1)
    ensures r.Err? ==> r.error == IndexOutOfRange
    ensures r.Ok? ==> |r.value| == |arr|
    ensures r.Ok? ==> forall p :: 0 <= p < |arr| - j ==> r.value[p] == arr[offset - (|arr| - 1 - p)]
    ensures r.Ok? ==> forall p :: |arr| - j <= p < |arr| ==> r.value[p] == inverse[p]
    decreases |arr| - j
  {
    if j == |arr| then Ok(inverse)
    else if !(0 <= offset - j < |arr|) then Err(IndexOutOfRange)
    else InverseFrom(arr, offset, j + 1, inverse[|arr| - 1 - j := arr[offset - j]])
  }

  /** fullInverse(arr, offset): stays inside arr only when the offset is the
      last index (or arr is empty), and there it returns an unreversed copy. */
  function FullInverseAt(arr: seq<byte>, offset: int): (r: Result<seq<byte>>)
    ensures r.Ok? <==> |arr| == 0 || offset == |arr| - 1
    ensures r.Err? ==> r.error == IndexOutOfRange
    ensures r.Ok? ==> r.value == arr
  {
    InverseFrom(arr, offset, 0, seq(|arr|, _ => 0))
  }

  /** ToXxx(arr, offset) as written. ToChar ignores the offset and behaves as
      ToChar(arr), reversing the caller's buffer; the other kinds decode the
      copy made by fullInverse(arr, offset) and leave the caller's buffer alone. */
  function ToValueAt(k: Kind, arr: seq<byte>, offset: int): (r: Decoded)
    ensures k == Char ==> r == ToValue(Char, arr)
    ensures k != Char ==> r.buffer == arr
    ensures k != Char ==> (r.result.Ok? <==> offset == |arr| - 1 && |arr| >= Width(k))
    ensures k != Char && r.result.Ok? ==> r.result.value == NativeDecode(k, arr[..Width(k)])
  {
    if k == Char then ToValue(Char, arr)
    else
      match FullInverseAt(arr, offset)
      case Err(e) => Decoded(Err(e), arr)
      case Ok(inverse) =>
        if |inverse| < Width(k) then Decoded(Err(TooShort), arr)
        else Decoded(Ok(NativeDecode(k, inverse[..Width(k)])), arr)
  }

  /** The only offset at which the as-written offset overload succeeds on an
      encoded Int32 reads the bytes unreversed: GetBytes(1) decodes to 2^24,
      and the natural offset 0 is out of range. */
  lemma OffsetDecodeCounterexample()
    ensures GetBytes(Int32, 1) == [0, 0, 0, 1]
    ensures ToValueAt(Int32, GetBytes(Int32, 1), 0).result == Err(IndexOutOfRange)
    ensures ToValueAt(Int32, GetBytes(Int32, 1), 3).result == Ok(16777216)
  {
    var bs := GetBytes(Int32, 1);
    assert NativeEncode(Int32, 1) == [1, 0, 0, 0];
    assert bs == [0, 0, 0, 1];
    assert bs[..4] == [0, 0, 0, 1];
    assert LeDecode([1]) == 1;
    assert LeDecode([0, 1]) == 256;
    assert LeDecode([0, 0, 1]) == 65536;
    assert LeDecode([0, 0, 0, 1]) == 16777216;
  }

  /** The evidently intended offset decode: the Width(k) bytes starting at the
      offset, in reversed order. */
  function ToValueAtIntended(k: Kind, arr: seq<byte>, offset: int): (r: Result<int>)
    ensures r.Ok? <==> 0 <= offset && offset + Width(k) <= |arr|
    ensures r.Err? ==> r.error == IndexOutOfRange
  {
    if offset < 0 || offset + Width(k) > |arr| then Err(IndexOutOfRange)
    else Ok(NativeDecode(k, Reverse(arr[offset..offset + Width(k)])))
  }

  /** The intended offset decode reads back a value encoded anywhere inside a
      larger buffer. */
  lemma {:induction false} IntendedOffsetRoundTrip(k: Kind, v: int, before: seq<byte>, after: seq<byte>)
    requires InRange(k, v)
    ensures ToValueAtIntended(k, before + GetBytes(k, v) + after, |before|) == Ok(v)
  {
    var arr := before + GetBytes(k, v) + after;
    assert arr[|before|..|before| + Width(k)] == GetBytes(k, v);
    ReverseInvolution(NativeEncode(k, v));
    NativeRoundTrip(k, v);
  }

  // ----- Generic entry point -----

  /** A value passed to GetBytes<T>: one of the nine supported kinds, or any
      other struct type, named by its type. */
  datatype StructValue = Prim(kind: Kind, bits: int) | OtherStruct(typeName: string)

  predicate WellFormed(sv: StructValue) {
    sv.Prim? ==> InRange(sv.kind, sv.bits)
  }

  /** GetBytes<T>(value): dispatches on the runtime type; any struct type
      outside the nine kinds raises NotSupported. */
  function GetBytesOf(sv: StructValue): (r: Result<seq<byte>>)
    requires WellFormed(sv)
    ensures r.Err? <==> sv.OtherStruct?
    ensures r.Err? ==> r.error == NotSupported
    ensures r.Ok? ==> |r.value| == Width(sv.kind)
    ensures r.Ok? ==> ToValue(sv.kind, r.value).result == Ok(sv.bits)
  {
    match sv
    case Prim(k, v) =>
      GetBytesRoundTrip(k, v);
      Ok(GetBytes(k, v))
    case OtherStruct(_) => Err(NotSupported)
  }

  // ----- Converter selection -----

  /** The byte-order policy a stream read or write is given: the platform's
      native order (DefaultEndianConverter) or the reversed one. */
  datatype Converter = Native | Inverse

  function Encode(conv: Converter, k: Kind, v: int): (r: seq<byte>)
    requires InRange(k, v)
    ensures |r| == Width(k)
  {
    match conv
    case Native => NativeEncode(k, v)
    case Inverse => GetBytes(k, v)
  }

  /** Decodes exactly one field with the chosen converter. */
  function Decode(conv: Converter, k: Kind, bs: seq<byte>): (v: int)
    requires |bs| == Width(k)
    ensures InRange(k, v)
  {
    match conv
    case Native => NativeDecode(k, bs)
    case Inverse =>
      assert bs[|bs| - Width(k)..] == bs;
      ToValue(k, bs).result.value
  }

  /** Both byte-order policies round-trip every value of every kind, and the
      reversed policy is the byte reversal of the native one. */
  lemma {:induction false} ConverterRoundTrip(conv: Converter, k: Kind, v: int)
    requires InRange(k, v)
    ensures Decode(conv, k, Encode(conv, k, v)) == v
    ensures Encode(Inverse, k, v) == Reverse(Encode(Native, k, v))
  {
    match conv
    case Native => NativeRoundTrip(k, v);
    case Inverse => GetBytesRoundTrip(k, v);
  }
}

=== FILE: dxf_dimassoc.dfy ===
/** The dimension-associativity reader (readDimAssoc) and its object snap
    point references (readOsnapPointRef). */
module DxfDimAssoc {
  import opened Cad
  import opened DxfRecords

  /** Group code 1 (class name "AcDbOsnapPointRef") opens a snap point
      reference. */
  const OsnapCode: int := 1

  /** The reference being read and the geometry handle that goes with it. */
  datatype OsnapState = OsnapState(geometry: Handle, ref: SnapRef)

  /** Every reference starts from the defaults: no geometry, zero values. */
  const FreshOsnap: OsnapState := OsnapState(0, DefaultSnapRef)

  /** The first record at or after `j` that ends a run of fields: a start
      record or the opening of the next snap point reference. */
  function FieldsEnd(rs: seq<Record>, j: nat): (k: nat)
    requires j <= |rs|
    ensures j <= k <= |rs|
    ensures k < |rs| ==> rs[k].code == StartCode || rs[k].code == OsnapCode
    ensures forall m :: j <= m < k ==> rs[m].code != StartCode && rs[m].code != OsnapCode
    decreases |rs| - j
  {
    if j == |rs| || rs[j].code == StartCode || rs[j].code == OsnapCode then j else FieldsEnd(rs, j + 1)
  }

  function DoubleOr(o: Option<Value>, d: Double): Double {
    if o.Some? && o.value.VDouble? then o.value.d else d
  }

  function HandleOr(o: Option<Value>, h: Handle): Handle {
    if o.Some? && o.value.VHandle? then o.value.h else h
  }

  function IntOr(o: Option<Value>, i: int): int {
    if o.Some? && o.value.VInt? then o.value.i else i
  }

  function BoolOr(o: Option<Value>, b: bool): bool {
    if o.Some? && o.value.VBool? then o.value.b else b
  }

  /** The value kind each snap point reference field is read as. */
  predicate OsnapKindOk(r: Record) {
    if r.code == 331 then r.value.VHandle?
    else if r.code == 10 || r.code == 20 || r.code == 30 || r.code == 40 then r.value.VDouble?
    else if r.code == 75 then r.value.VBool?
    else if r.code == 72 || r.code == 73 || r.code == 91 then r.value.VInt?
    else true
  }

  /** One field record of a snap point reference. 10, 20 and 30 replace one
      coordinate each and keep the other two; a code the reference does not
      know leaves it as it was; a value of the wrong kind is an error. */
  function OsnapField(st: OsnapState, r: Record): (a: Access<OsnapState>)
    ensures a.Got? <==> OsnapKindOk(r)
    ensures a.Got? ==> a.value.ref.point.x == if r.code == 10 then r.value.d else st.ref.point.x
    ensures a.Got? ==> a.value.ref.point.y == if r.code == 20 then r.value.d else st.ref.point.y
    ensures a.Got? ==> a.value.ref.point.z == if r.code == 30 then r.value.d else st.ref.point.z
    ensures a.Got? ==> a.value.ref.parameter == if r.code == 40 then r.value.d else st.ref.parameter
    ensures a.Got? ==> a.value.geometry == if r.code == 331 then r.value.h else st.geometry
    ensures a.Got? ==> a.value.ref.snapType == if r.code == 72 then r.value.i else st.ref.snapType
    ensures a.Got? ==> a.value.ref.subentType == if r.code == 73 then r.value.i else st.ref.subentType
    ensures a.Got? ==> a.value.ref.gsMarker == if r.code == 91 then r.value.i else st.ref.gsMarker
    ensures a.Got? ==> a.value.ref.hasLastPointRef == if r.code == 75 then r.value.b else st.ref.hasLastPointRef
  {
    var p := st.ref.point;
    match r.code
    case 72 => (match AsInt(r.value) case Got(v) => Got(st.(ref := st.ref.(snapType := v))) case WrongKind => WrongKind)
    case 331 => (match AsHandle(r.value) case Got(h) => Got(st.(geometry := h)) case WrongKind => WrongKind)
    case 73 => (match AsInt(r.value) case Got(v) => Got(st.(ref := st.ref.(subentType := v))) case WrongKind => WrongKind)
    case 91 => (match AsInt(r.value) case Got(v) => Got(st.(ref := st.ref.(gsMarker := v))) case WrongKind => WrongKind)
    case 40 => (match AsDouble(r.value) case Got(d) => Got(st.(ref := st.ref.(parameter := d))) case WrongKind => WrongKind)
    case 10 => (match AsDouble(r.value) case Got(d) => Got(st.(ref := st.ref.(point := XYZ(d, p.y, p.z)))) case WrongKind => WrongKind)
    case 20 => (match AsDouble(r.value) case Got(d) => Got(st.(ref := st.ref.(point := XYZ(p.x, d, p.z)))) case WrongKind => WrongKind)
    case 30 => (match AsDouble(r.value) case Got(d) => Got(st.(ref := st.ref.(point := XYZ(p.x, p.y, d)))) case WrongKind => WrongKind)
    case 75 => (match AsBool(r.value) case Got(b) => Got(st.(ref := st.ref.(hasLastPointRef := b))) case WrongKind => WrongKind)
    case _ => Got(st)
  }

  /** A field that the records of one code overwrite ends as the last of
      them, whether the span is taken whole or its first record is read
      first. One lemma per value kind. */
  lemma DoubleLast(rs: seq<Record>, j: nat, at: nat, code: int, prev: Double, mid: Double)
    requires j < at <= |rs|
    requires forall m :: j <= m < at && rs[m].code == code ==> rs[m].value.VDouble?
    requires mid == if rs[j].code == code then rs[j].value.d else prev
    ensures DoubleOr(LastValue(rs, j + 1, at, code), mid) == DoubleOr(LastValue(rs, j, at, code), prev)
  {
    LastValueFront(rs, j, at, code);
    LastValueFrom(rs, j + 1, at, code);
  }

  lemma HandleLast(rs: seq<Record>, j: nat, at: nat, code: int, prev: Handle, mid: Handle)
    requires j < at <= |rs|
    requires forall m :: j <= m < at && rs[m].code == code ==> rs[m].value.VHandle?
    requires mid == if rs[j].code == code then rs[j].value.h else prev
    ensures HandleOr(LastValue(rs, j + 1, at, code), mid) == HandleOr(LastValue(rs, j, at, code), prev)
  {
    LastValueFront(rs, j, at, code);
    LastValueFrom(rs, j + 1, at, code);
  }

  lemma IntLast(rs: seq<Record>, j: nat, at: nat, code: int, prev: int, mid: int)
    requires j < at <= |rs|
    requires forall m :: j <= m < at && rs[m].code == code ==> rs[m].value.VInt?
    requires mid == if rs[j].code == code then rs[j].value.i else prev
    ensures IntOr(LastValue(rs, j + 1, at, code), mid) == IntOr(LastValue(rs, j, at, code), prev)
  {
    LastValueFront(rs, j, at, code);
    LastValueFrom(rs, j + 1, at, code);
  }

  lemma BoolLast(rs: seq<Record>, j: nat, at: nat, code: int, prev: bool, mid: bool)
    requires j < at <= |rs|
    requires forall m :: j <= m < at && rs[m].code == code ==> rs[m].value.VBool?
    requires mid == if rs[j].code == code then rs[j].value.b else prev
    ensures BoolOr(LastValue(rs, j + 1, at, code), mid) == BoolOr(LastValue(rs, j, at, code), prev)
  {
    LastValueFront(rs, j, at, code);
    LastValueFrom(rs, j + 1, at, code);
  }

  /** Reading the first field record of a span, then the rest, leaves every
      field as the last value of the whole span. */
  lemma FieldsLast(rs: seq<Record>, j: nat, at: nat, st: OsnapState, st': OsnapState)
    requires j < at <= |rs| && OsnapField(st, rs[j]) == Got(st')
    requires forall m :: j + 1 <= m < at ==> OsnapKindOk(rs[m])
    ensures DoubleOr(LastValue(rs, j + 1, at, 10), st'.ref.point.x) == DoubleOr(LastValue(rs, j, at, 10), st.ref.point.x)
    ensures DoubleOr(LastValue(rs, j + 1, at, 20), st'.ref.point.y) == DoubleOr(LastValue(rs, j, at, 20), st.ref.point.y)
    ensures DoubleOr(LastValue(rs, j + 1, at, 30), st'.ref.point.z) == DoubleOr(LastValue(rs, j, at, 30), st.ref.point.z)
    ensures DoubleOr(LastValue(rs, j + 1, at, 40), st'.ref.parameter) == DoubleOr(LastValue(rs, j, at, 40), st.ref.parameter)
    ensures HandleOr(LastValue(rs, j + 1, at, 331), st'.geometry) == HandleOr(LastValue(rs, j, at, 331), st.geometry)
    ensures IntOr(LastValue(rs, j + 1, at, 72), st'.ref.snapType) == IntOr(LastValue(rs, j, at, 72), st.ref.snapType)
    ensures IntOr(LastValue(rs, j + 1, at, 73), st'.ref.subentType) == IntOr(LastValue(rs, j, at, 73), st.ref.subentType)
    ensures IntOr(LastValue(rs, j + 1, at, 91), st'.ref.gsMarker) == IntOr(LastValue(rs, j, at, 91), st.ref.gsMarker)
    ensures BoolOr(LastValue(rs, j + 1, at, 75), st'.ref.hasLastPointRef)
            == BoolOr(LastValue(rs, j, at, 75), st.ref.hasLastPointRef)
  {
    assert forall m :: j <= m < at ==> OsnapKindOk(rs[m]);
    DoubleLast(rs, j, at, 10, st.ref.point.x, st'.ref.point.x);
    DoubleLast(rs, j, at, 20, st.ref.point.y, st'.ref.point.y);
    DoubleLast(rs, j, at, 30, st.ref.point.z, st'.ref.point.z);
    DoubleLast(rs, j, at, 40, st.ref.parameter, st'.ref.parameter);
    HandleLast(rs, j, at, 331, st.geometry, st'.geometry);
    IntLast(rs, j, at, 72, st.ref.snapType, st'.ref.snapType);
    IntLast(rs, j, at, 73, st.ref.subentType, st'.ref.subentType);
    IntLast(rs, j, at, 91, st.ref.gsMarker, st'.ref.gsMarker);
    BoolLast(rs, j, at, 75, st.ref.hasLastPointRef, st'.ref.hasLastPointRef);
  }

  /** The field loop of readOsnapPointRef, from the record after the code-1
      record: it stops at the next start record or the next code-1 record.
      Every field (each coordinate of the point, the parameter, the geometry
      handle, the snap and subentity types, the marker and the last-point
      flag) ends up as the last value given for it in the run, or as it was. */
  function OsnapFields(rs: seq<Record>, j: nat, st: OsnapState): (r: Step<OsnapState>)
    requires j <= |rs|
    ensures r.Next? ==> r.at == FieldsEnd(rs, j) < |rs|
    ensures r.Fail? ==> j <= r.at <= |rs|
    ensures FieldsEnd(rs, j) == |rs| ==> r.Fail?
    ensures r.Next? ==> forall m :: j <= m < r.at ==> OsnapKindOk(rs[m])
    ensures r.Fail? ==> r.error == InvalidValue ==> r.at < |rs| && !OsnapKindOk(rs[r.at])
    ensures r.Next? ==> r.value.ref.point.x == DoubleOr(LastValue(rs, j, r.at, 10), st.ref.point.x)
    ensures r.Next? ==> r.value.ref.point.y == DoubleOr(LastValue(rs, j, r.at, 20), st.ref.point.y)
    ensures r.Next? ==> r.value.ref.point.z == DoubleOr(LastValue(rs, j, r.at, 30), st.ref.point.z)
    ensures r.Next? ==> r.value.ref.parameter == DoubleOr(LastValue(rs, j, r.at, 40), st.ref.parameter)
    ensures r.Next? ==> r.value.geometry == HandleOr(LastValue(rs, j, r.at, 331), st.geometry)
    ensures r.Next? ==> r.value.ref.snapType == IntOr(LastValue(rs, j, r.at, 72), st.ref.snapType)
    ensures r.Next? ==> r.value.ref.subentType == IntOr(LastValue(rs, j, r.at, 73), st.ref.subentType)
    ensures r.Next? ==> r.value.ref.gsMarker == IntOr(LastValue(rs, j, r.at, 91), st.ref.gsMarker)
    ensures r.Next? ==> r.value.ref.hasLastPointRef == BoolOr(LastValue(rs, j, r.at, 75), st.ref.hasLastPointRef)
    decreases |rs| - j
  {
    if j == |rs| then Fail(EndOfRecords, j)
    else if rs[j].code == StartCode || rs[j].code == OsnapCode then Next(st, j)
    else
      match OsnapField(st, rs[j])
      case WrongKind => Fail(InvalidValue, j)
      case Got(st') =>
        var r := OsnapFields(rs, j + 1, st');
        if r.Next? then
          FieldsLast(rs, j, r.at, st, st');
          r
        else r
  }

  /** The reference, with its geometry handle, that the fields after the
      code-1 record at p make of a fresh reference, if they read. */
  function RefAt(rs: seq<Record>, p: nat): Option<OsnapState>
    requires p < |rs|
  {
    var f := OsnapFields(rs, p + 1, FreshOsnap);
    if f.Next? then Some(f.value) else None
  }

  /** The field loop after the code-1 record at j, from a fresh reference. */
  function FreshFields(rs: seq<Record>, j: nat): (r: Step<OsnapState>)
    requires j < |rs|
    ensures r.Next? ==> r.at == FieldsEnd(rs, j + 1) < |rs| && RefAt(rs, j) == Some(r.value)
    ensures r.Fail? ==> j < r.at <= |rs|
  {
    OsnapFields(rs, j + 1, FreshOsnap)
  }

  /** `handles` and `refs` are the references read at the code-1 records
      `ps`, in order. */
  predicate RefsAt(rs: seq<Record>, ps: seq<nat>, handles: seq<Handle>, refs: seq<SnapRef>)
    decreases |ps|
  {
    |handles| == |ps| && |refs| == |ps| &&
    (|ps| == 0 ||
     (ps[0] < |rs| && RefAt(rs, ps[0]) == Some(OsnapState(handles[0], refs[0])) &&
      RefsAt(rs, ps[1..], handles[1..], refs[1..])))
  }

  /** RefsAt, one reference at a time. */
  lemma {:induction false} RefsAtIndex(rs: seq<Record>, ps: seq<nat>, handles: seq<Handle>, refs: seq<SnapRef>, n: nat)
    requires RefsAt(rs, ps, handles, refs) && n < |ps|
    ensures ps[n] < |rs| && OsnapFields(rs, ps[n] + 1, FreshOsnap).Next?
    ensures handles[n] == OsnapFields(rs, ps[n] + 1, FreshOsnap).value.geometry
    ensures refs[n] == OsnapFields(rs, ps[n] + 1, FreshOsnap).value.ref
    decreases n
  {
    if n > 0 {
      RefsAtIndex(rs, ps[1..], handles[1..], refs[1..], n - 1);
    }
  }

  /** One more reference in front of the ones after it. */
  lemma OneMoreRef(rs: seq<Record>, j: nat, g: Handle, x: SnapRef, ps: seq<nat>, hs: seq<Handle>, xs: seq<SnapRef>)
    requires j < |rs| && RefAt(rs, j) == Some(OsnapState(g, x)) && RefsAt(rs, ps, hs, xs)
    ensures RefsAt(rs, [j] + ps, [g] + hs, [x] + xs)
  {
    assert ([j] + ps)[1..] == ps && ([g] + hs)[1..] == hs && ([x] + xs)[1..] == xs;
  }

  /** readOsnapPointRef, called on a code-1 record: the reference read from
      the following fields is closed (its geometry handle and itself appended
      in lock-step) and, when the run stopped on another code-1 record, the
      next reference is read the same way. The reader ends on the start
      record that ends the object. */
  function OsnapRefs(rs: seq<Record>, j: nat, handles: seq<Handle>, refs: seq<SnapRef>): (r: Step<(seq<Handle>, seq<SnapRef>)>)
    requires j < |rs| && rs[j].code == OsnapCode && |handles| == |refs|
    ensures r.Next? ==> r.at == NextStart(rs, j) < |rs|
    ensures r.Next? ==> |r.value.0| == |r.value.1| == |refs| + CountCode(rs, j, r.at, OsnapCode)
    ensures r.Next? ==> handles <= r.value.0 && refs <= r.value.1
    ensures r.Fail? ==> j < r.at <= |rs|
    decreases |rs| - j
  {
    match FreshFields(rs, j)
    case Fail(e, k) => Fail(e, k)
    case Next(st, k) =>
      var handles', refs' := handles + [st.geometry], refs + [st.ref];
      NextStartSkip(rs, j, k);
      assert CountCode(rs, j, k, OsnapCode) == 1 by {
        assert CountCode(rs, j + 1, k, OsnapCode) == 0 by { NoCode(rs, j + 1, k, OsnapCode); }
      }
      if rs[k].code == OsnapCode then
        var r := OsnapRefs(rs, k, handles', refs');
        if r.Next? then
          CountCodeSplit(rs, j, k, r.at, OsnapCode);
          r
        else r
      else
        assert NextStart(rs, k) == k;
        Next((handles', refs'), k)
  }

  /** The references readOsnapPointRef appends are, in order, those read at
      the code-1 records up to the object's end: one per code-1 record, each
      starting from the defaults and filled from the fields after it. */
  lemma {:induction false} OsnapRefsRead(rs: seq<Record>, j: nat, handles: seq<Handle>, refs: seq<SnapRef>)
    requires j < |rs| && rs[j].code == OsnapCode && |handles| == |refs|
    ensures var r := OsnapRefs(rs, j, handles, refs);
            r.Next? ==> RefsAt(rs, CodePositions(rs, j, r.at, OsnapCode), r.value.0[|handles|..], r.value.1[|refs|..])
    decreases |rs| - j
  {
    var r := OsnapRefs(rs, j, handles, refs);
    var f := FreshFields(rs, j);
    if f.Next? && r.Next? {
      var st, k := f.value, f.at;
      var handles', refs' := handles + [st.geometry], refs + [st.ref];
      assert CodePositions(rs, j, k, OsnapCode) == [j] by {
        NoCode(rs, j + 1, k, OsnapCode);
        assert CodePositions(rs, j + 1, k, OsnapCode) == [];
      }
      if rs[k].code == OsnapCode {
        assert r == OsnapRefs(rs, k, handles', refs');
        OsnapRefsRead(rs, k, handles', refs');
        CodePositionsSplit(rs, j, k, r.at, OsnapCode);
        var hs, xs := r.value.0, r.value.1;
        SliceAfter(hs, handles, st.geometry);
        SliceAfter(xs, refs, st.ref);
        OneMoreRef(rs, j, st.geometry, st.ref, CodePositions(rs, k, r.at, OsnapCode), hs[|handles'|..], xs[|refs'|..]);
      } else {
        assert r == Next((handles', refs'), k);
        assert handles'[|handles|..] == [st.geometry] + [] && refs'[|refs|..] == [st.ref] + [];
        OneMoreRef(rs, j, st.geometry, st.ref, [], [], []);
      }
    }
  }

  /** What follows a prefix that ends in x is x, then what follows x. */
  lemma SliceAfter<T>(s: seq<T>, pre: seq<T>, x: T)
    requires pre + [x] <= s
    ensures s[|pre|..] == [x] + s[|pre| + 1..]
  {
    assert s[|pre|] == (pre + [x])[|pre|];
  }

  /** A span without a record of the code counts none of it. */
  lemma {:induction false} NoCode(rs: seq<Record>, lo: nat, hi: nat, code: int)
    requires lo <= hi <= |rs|
    requires forall m :: lo <= m < hi ==> rs[m].code != code
    ensures CountCode(rs, lo, hi, code) == 0
    decreases hi - lo
  {
    if lo < hi {
      NoCode(rs, lo + 1, hi, code);
    }
  }

  /** What the dimension-associativity loop has read so far. */
  datatype AssocState = AssocState(dimension: Option<Handle>, associativity: Option<int>, transSpace: Option<bool>,
                                   rotatedType: Option<int>, handles: seq<Handle>, refs: seq<SnapRef>)

  /** One record of the dimension-associativity loop other than a start or
      code-1 record: 330, 90, 70 and 71 set their field, a value of the wrong
      kind is an error, and any other code changes nothing. */
  function AssocField(st: AssocState, r: Record): (a: Access<AssocState>)
    ensures a.WrongKind? <==>
              ((r.code == 330 && !r.value.VHandle?) || ((r.code == 90 || r.code == 71) && !r.value.VInt?) ||
               (r.code == 70 && !r.value.VBool?))
    ensures a.Got? ==> a.value.handles == st.handles && a.value.refs == st.refs
    ensures a.Got? ==> a.value.dimension == if r.code == 330 then Some(r.value.h) else st.dimension
    ensures a.Got? ==> a.value.associativity == if r.code == 90 then Some(r.value.i) else st.associativity
    ensures a.Got? ==> a.value.transSpace == if r.code == 70 then Some(r.value.b) else st.transSpace
    ensures a.Got? ==> a.value.rotatedType == if r.code == 71 then Some(r.value.i) else st.rotatedType
  {
    match r.code
    case 330 => (match AsHandle(r.value) case Got(h) => Got(st.(dimension := Some(h))) case WrongKind => WrongKind)
    case 90 => (match AsInt(r.value) case Got(v) => Got(st.(associativity := Some(v))) case WrongKind => WrongKind)
    case 70 => (match AsBool(r.value) case Got(b) => Got(st.(transSpace := Some(b))) case WrongKind => WrongKind)
    case 71 => (match AsInt(r.value) case Got(v) => Got(st.(rotatedType := Some(v))) case WrongKind => WrongKind)
    case _ => Got(st)
  }

  /** The record loop of readDimAssoc, after the subclass marker: 330 is the
      dimension's handle, 90 the associativity flag, 70 the trans-space flag,
      71 the rotated-dimension type; a code-1 record hands the rest of the
      object to the snap point references. Other codes are skipped. */
  function DimAssocLoop(rs: seq<Record>, j: nat, st: AssocState): (r: Step<AssocState>)
    requires j <= |rs| && |st.handles| == |st.refs|
    ensures r.Next? ==> r.at == NextStart(rs, j) < |rs|
    ensures r.Fail? ==> j <= r.at <= |rs|
    ensures r.Next? ==> |r.value.handles| == |r.value.refs| == |st.refs| + CountCode(rs, j, r.at, OsnapCode)
    ensures r.Next? ==> st.refs <= r.value.refs && st.handles <= r.value.handles
    ensures r.Next? ==> r.value.dimension == OptHandle(LastValue(rs, j, FieldsEnd(rs, j), 330), st.dimension)
    ensures r.Next? ==> forall m :: j <= m < FieldsEnd(rs, j) && rs[m].code == 330 ==> rs[m].value.VHandle?
    decreases |rs| - j
  {
    if j == |rs| then Fail(EndOfRecords, j)
    else if rs[j].code == StartCode then Next(st, j)
    else if rs[j].code == OsnapCode then
      // readOsnapPointRef leaves the cursor on the object's closing start
      // record, where the loop ends.
      match OsnapRefs(rs, j, st.handles, st.refs)
      case Fail(e, k) => Fail(e, k)
      case Next(lists, k) => Next(st.(handles := lists.0, refs := lists.1), k)
    else
      match AssocField(st, rs[j])
      case WrongKind => Fail(InvalidValue, j)
      case Got(st') =>
        var r := DimAssocLoop(rs, j + 1, st');
        if r.Next? then
          assert FieldsEnd(rs, j) == FieldsEnd(rs, j + 1);
          LastValueFront(rs, j, FieldsEnd(rs, j), 330);
          LastValueFrom(rs, j + 1, FieldsEnd(rs, j), 330);
          assert rs[j].code == 330 ==> st'.dimension == OptHandle(Some(rs[j].value), st.dimension);
          assert rs[j].code != 330 ==> st'.dimension == st.dimension;
          r
        else r
  }

  /** The references the record loop gathers are those read at its code-1
      records, in order. */
  lemma {:induction false} DimAssocLoopRefs(rs: seq<Record>, j: nat, st: AssocState, u: AssocState, at: nat)
    requires j <= |rs| && |st.handles| == |st.refs| && DimAssocLoop(rs, j, st) == Next(u, at)
    ensures j <= at && |st.handles| <= |u.handles| && |st.refs| <= |u.refs|
    ensures RefsAt(rs, CodePositions(rs, j, at, OsnapCode), u.handles[|st.handles|..], u.refs[|st.refs|..])
    decreases |rs| - j
  {
    if rs[j].code == StartCode {
      assert u == st && at == j;
      assert st.handles[|st.handles|..] == [] && st.refs[|st.refs|..] == [];
      assert CodePositions(rs, j, j, OsnapCode) == [];
      assert RefsAt(rs, [], [], []);
    } else if rs[j].code == OsnapCode {
      var o := OsnapRefs(rs, j, st.handles, st.refs);
      assert u.handles == o.value.0 && u.refs == o.value.1 && at == o.at;
      OsnapRefsRead(rs, j, st.handles, st.refs);
    } else {
      var st' := AssocField(st, rs[j]).value;
      assert st'.handles == st.handles && st'.refs == st.refs;
      DimAssocLoopRefs(rs, j + 1, st', u, at);
      var ps := CodePositions(rs, j + 1, at, OsnapCode);
      assert CodePositions(rs, j, at, OsnapCode) == [] + ps;
      assert [] + ps == ps;
    }
  }

  /** A flag of the record loop that the records of one code overwrite ends
      as the last of them, whether the span is taken whole or its first
      record is read first. */
  lemma OptIntLast(rs: seq<Record>, j: nat, at: nat, code: int, prev: Option<int>, mid: Option<int>)
    requires j < at <= |rs|
    requires forall m :: j <= m < at && rs[m].code == code ==> rs[m].value.VInt?
    requires mid == if rs[j].code == code then Some(rs[j].value.i) else prev
    ensures OptInt(LastValue(rs, j + 1, at, code), mid) == OptInt(LastValue(rs, j, at, code), prev)
  {
    LastValueFront(rs, j, at, code);
    LastValueFrom(rs, j + 1, at, code);
  }

  lemma OptBoolLast(rs: seq<Record>, j: nat, at: nat, code: int, prev: Option<bool>, mid: Option<bool>)
    requires j < at <= |rs|
    requires forall m :: j <= m < at && rs[m].code == code ==> rs[m].value.VBool?
    requires mid == if rs[j].code == code then Some(rs[j].value.b) else prev
    ensures OptBool(LastValue(rs, j + 1, at, code), mid) == OptBool(LastValue(rs, j, at, code), prev)
  {
    LastValueFront(rs, j, at, code);
    LastValueFrom(rs, j + 1, at, code);
  }

  /** The associativity flag (90), the trans-space flag (70) and the rotated
      dimension type (71) the record loop stores are the last values given
      for them before the first code-1 record, or what they were before the
      loop; every such record holds a value of its field's kind. */
  lemma {:induction false} DimAssocLoopFlags(rs: seq<Record>, j: nat, st: AssocState, u: AssocState, at: nat)
    requires j <= |rs| && |st.handles| == |st.refs| && DimAssocLoop(rs, j, st) == Next(u, at)
    ensures u.associativity == OptInt(LastValue(rs, j, FieldsEnd(rs, j), 90), st.associativity)
    ensures u.transSpace == OptBool(LastValue(rs, j, FieldsEnd(rs, j), 70), st.transSpace)
    ensures u.rotatedType == OptInt(LastValue(rs, j, FieldsEnd(rs, j), 71), st.rotatedType)
    ensures forall m :: j <= m < FieldsEnd(rs, j) && (rs[m].code == 90 || rs[m].code == 71) ==> rs[m].value.VInt?
    ensures forall m :: j <= m < FieldsEnd(rs, j) && rs[m].code == 70 ==> rs[m].value.VBool?
    decreases |rs| - j
  {
    assert j < |rs|;
    if rs[j].code == StartCode {
      assert u == st && FieldsEnd(rs, j) == j;
    } else if rs[j].code == OsnapCode {
      var o := OsnapRefs(rs, j, st.handles, st.refs);
      assert u == st.(handles := o.value.0, refs := o.value.1) && FieldsEnd(rs, j) == j;
    } else {
      var st' := AssocField(st, rs[j]).value;
      DimAssocLoopFlags(rs, j + 1, st', u, at);
      assert FieldsEnd(rs, j) == FieldsEnd(rs, j + 1);
      FlagsStep(rs, j, FieldsEnd(rs, j), st, st', u);
    }
  }

  /** One field record read before the rest of the span: the flags the rest
      leaves are the last values of the whole span. */
  lemma FlagsStep(rs: seq<Record>, j: nat, e: nat, st: AssocState, st': AssocState, u: AssocState)
    requires j < e <= |rs| && AssocField(st, rs[j]) == Got(st')
    requires forall m :: j + 1 <= m < e && (rs[m].code == 90 || rs[m].code == 71) ==> rs[m].value.VInt?
    requires forall m :: j + 1 <= m < e && rs[m].code == 70 ==> rs[m].value.VBool?
    requires u.associativity == OptInt(LastValue(rs, j + 1, e, 90), st'.associativity)
    requires u.transSpace == OptBool(LastValue(rs, j + 1, e, 70), st'.transSpace)
    requires u.rotatedType == OptInt(LastValue(rs, j + 1, e, 71), st'.rotatedType)
    ensures u.associativity == OptInt(LastValue(rs, j, e, 90), st.associativity)
    ensures u.transSpace == OptBool(LastValue(rs, j, e, 70), st.transSpace)
    ensures u.rotatedType == OptInt(LastValue(rs, j, e, 71), st.rotatedType)
    ensures forall m :: j <= m < e && (rs[m].code == 90 || rs[m].code == 71) ==> rs[m].value.VInt?
    ensures forall m :: j <= m < e && rs[m].code == 70 ==> rs[m].value.VBool?
  {
    OptIntLast(rs, j, e, 90, st.associativity, st'.associativity);
    OptBoolLast(rs, j, e, 70, st.transSpace, st'.transSpace);
    OptIntLast(rs, j, e, 71, st.rotatedType, st'.rotatedType);
  }

  /** readDimAssoc, from the object's start record: the common object data up
      to the subclass marker, the marker itself skipped, then the record loop.
      The references and their geometry handles are stored only when at
      least one reference was read. */
  function ReadDimAssoc(name: string, rs: seq<Record>, i: nat): (r: Step<Template>)
    requires i < |rs|
    ensures r.Next? ==> i < r.at < |rs| && rs[r.at].code == StartCode
    ensures r.Fail? ==> i < r.at <= |rs|
    ensures r.Next? ==> r.value.objectName == name && r.value.body.DimAssocBody?
    ensures r.Next? ==>
              var m := FirstWith(rs, i + 1, SubclassCode);
              m < |rs| && r.at == NextStart(rs, m + 1) &&
              var n := CountCode(rs, m + 1, r.at, OsnapCode);
              r.value.common == rs[i + 1..m] &&
              r.value.body.dimension == OptHandle(LastValue(rs, m + 1, FieldsEnd(rs, m + 1), 330), None) &&
              (r.value.body.pointRefs.Some? <==> n > 0) &&
              (r.value.body.geometryHandles.Some? <==> n > 0) &&
              (n > 0 ==> |r.value.body.pointRefs.value| == |r.value.body.geometryHandles.value| == n)
  {
    var t := NewTemplate(name, DimAssocBody(None, None, None, None, None, None));
    match CommonObjectData(rs, i + 1, t)
    case Fail(e, k) => Fail(e, k)
    case Next(t', m) =>
      assert t'.common == [] + rs[i + 1..m] == rs[i + 1..m];
      match DimAssocLoop(rs, m + 1, AssocState(None, None, None, None, [], []))
      case Fail(e, k) => Fail(e, k)
      case Next(st, k) =>
        assert st.dimension == OptHandle(LastValue(rs, m + 1, FieldsEnd(rs, m + 1), 330), None);
        Next(t'.(body := AssocBody(st)), k)
  }

  /** The body readDimAssoc stores once its loop is done: the references
      and their geometry handles are stored only when at least one reference
      was read. */
  function AssocBody(st: AssocState): (b: Body)
    ensures b.DimAssocBody? && b.dimension == st.dimension
    ensures b.associativity == st.associativity && b.transSpace == st.transSpace && b.rotatedType == st.rotatedType
    ensures b.pointRefs.Some? <==> |st.refs| > 0
    ensures b.geometryHandles.Some? <==> |st.refs| > 0
    ensures |st.refs| > 0 ==> b.pointRefs.value == st.refs && b.geometryHandles.value == st.handles
  {
    var found := |st.refs| > 0;
    DimAssocBody(st.dimension, st.associativity, st.transSpace, st.rotatedType,
                 if found then Some(st.refs) else None,
                 if found then Some(st.handles) else None)
  }

  /** The object ends at `at`, after the subclass marker at m, and the
      template holds a point reference and geometry handle list exactly when
      a code-1 record lies between them: the references read at those
      records, in order. */
  predicate AssocRefsAfter(rs: seq<Record>, m: nat, u: Template, at: nat) {
    m < at <= |rs| && u.body.DimAssocBody? &&
    var ps := CodePositions(rs, m + 1, at, OsnapCode);
    (u.body.pointRefs.Some? <==> |ps| > 0) && (u.body.geometryHandles.Some? <==> |ps| > 0) &&
    (|ps| > 0 ==> RefsAt(rs, ps, u.body.geometryHandles.value, u.body.pointRefs.value))
  }

  /** A dimension associativity keeps, in order, one reference per code-1
      record after its subclass marker: each starts from the defaults and is
      filled from the fields that follow it, with its geometry handle beside
      it. */
  lemma ReadDimAssocRefs(name: string, rs: seq<Record>, i: nat, u: Template, at: nat)
    requires i < |rs| && ReadDimAssoc(name, rs, i) == Next(u, at)
    ensures AssocRefsAfter(rs, FirstWith(rs, i + 1, SubclassCode), u, at)
  {
    var t := NewTemplate(name, DimAssocBody(None, None, None, None, None, None));
    var c := CommonObjectData(rs, i + 1, t);
    assert c.Next? && c.at == FirstWith(rs, i + 1, SubclassCode);
    var r := DimAssocLoop(rs, c.at + 1, AssocState(None, None, None, None, [], []));
    assert r == Next(r.value, at) && u.body == AssocBody(r.value);
    AssocRefsFrom(rs, c.at, r.value, u, at);
  }

  /** After the subclass marker at m, the template holds the last
      associativity flag (90), trans-space flag (70) and rotated dimension
      type (71) given before the first snap point reference; a field no
      record gives stays unset. */
  predicate AssocFlagsAfter(rs: seq<Record>, m: nat, u: Template) {
    m < |rs| && u.body.DimAssocBody? &&
    u.body.associativity == OptInt(LastValue(rs, m + 1, FieldsEnd(rs, m + 1), 90), None) &&
    u.body.transSpace == OptBool(LastValue(rs, m + 1, FieldsEnd(rs, m + 1), 70), None) &&
    u.body.rotatedType == OptInt(LastValue(rs, m + 1, FieldsEnd(rs, m + 1), 71), None)
  }

  /** A dimension associativity holds the flags given after its subclass
      marker. */
  lemma ReadDimAssocFlags(name: string, rs: seq<Record>, i: nat, u: Template, at: nat)
    requires i < |rs| && ReadDimAssoc(name, rs, i) == Next(u, at)
    ensures AssocFlagsAfter(rs, FirstWith(rs, i + 1, SubclassCode), u)
  {
    var t := NewTemplate(name, DimAssocBody(None, None, None, None, None, None));
    var c := CommonObjectData(rs, i + 1, t);
    assert c.Next? && c.at == FirstWith(rs, i + 1, SubclassCode);
    var r := DimAssocLoop(rs, c.at + 1, AssocState(None, None, None, None, [], []));
    assert r == Next(r.value, at) && u.body == AssocBody(r.value);
    AssocFlagsFrom(rs, c.at, r.value, u, at);
  }

  /** The flags a template receives from a record loop run after the
      subclass marker at m. */
  lemma AssocFlagsFrom(rs: seq<Record>, m: nat, d: AssocState, u: Template, at: nat)
    requires m < |rs| && DimAssocLoop(rs, m + 1, AssocState(None, None, None, None, [], [])) == Next(d, at)
    requires u.body == AssocBody(d)
    ensures AssocFlagsAfter(rs, m, u)
  {
    DimAssocLoopFlags(rs, m + 1, AssocState(None, None, None, None, [], []), d, at);
  }

  /** The references a template receives from a record loop run after the
      subclass marker at m. */
  lemma AssocRefsFrom(rs: seq<Record>, m: nat, d: AssocState, u: Template, at: nat)
    requires m < |rs| && DimAssocLoop(rs, m + 1, AssocState(None, None, None, None, [], [])) == Next(d, at)
    requires u.body == AssocBody(d)
    ensures AssocRefsAfter(rs, m, u, at)
  {
    DimAssocLoopRefs(rs, m + 1, AssocState(None, None, None, None, [], []), d, at);
    assert d.handles[0..] == d.handles && d.refs[0..] == d.refs;
  }
}

=== FILE: dxf_handlers.dfy ===
/** The type handlers of the OBJECTS-section reader and the shared loop that
    drives them (readObjectCodes): each record is offered to the type's
    handler first and, when the handler declines it, to the common-code
    reader. */
module DxfHandlers {
  import opened Cad
  import opened DxfRecords

  /** The subclass marker text that starts the entries of an XRecord. */
  const XRecordMarker: string := "AcDbXrecord"

  /** The object types read through readObjectCodes, one per handler. */
  datatype CodesKind =
    | DictionaryCodes | DictionaryWithDefaultCodes | LayoutCodes | DictionaryVarCodes
    | PdfDefinitionCodes | ScaleCodes | VisualStyleCodes | XRecordCodes

  /** A handler's answer for the record under the cursor: taken (with the
      template and the cursor it leaves), declined (left to the common
      codes), or broken by an error. */
  datatype Handled = Taken(t: Template, at: nat) | Declined | Broken(error: ReadError, at: nat)

  /** The body shape each handler works on. */
  predicate Matches(kind: CodesKind, t: Template) {
    match kind
    case DictionaryCodes => t.body.DictionaryBody?
    case DictionaryWithDefaultCodes => t.body.DictionaryBody?
    case LayoutCodes => t.body.LayoutBody?
    case XRecordCodes => t.body.XRecordBody?
    case _ => t.body.PlainBody?
  }

  /** The codes the dictionary handler answers itself. */
  predicate DictionaryClaims(env: Env, r: Record) {
    r.code == 280 || r.code == 281 || r.code == 3 || r.code == 350 || r.code == 360
    || env.inMap(DictionarySub, r.code)
  }

  /** The records a kind's handler takes (or fails on) instead of declining. */
  predicate Claims(kind: CodesKind, env: Env, r: Record) {
    match kind
    case DictionaryCodes => DictionaryClaims(env, r)
    case DictionaryWithDefaultCodes =>
      r.code == 340 || env.inMap(DictionaryWithDefaultSub, r.code) || DictionaryClaims(env, r)
    case LayoutCodes =>
      r.code == 330 || r.code == 331 || env.inMap(LayoutSub, r.code) || env.inMap(PlotSettingsSub, r.code)
    case DictionaryVarCodes => env.inMap(DictionaryVarSub, r.code)
    case PdfDefinitionCodes => env.inMap(PdfDefinitionSub, r.code)
    case ScaleCodes => r.code == 70 || env.inMap(ScaleSub, r.code)
    case VisualStyleCodes =>
      r.code == 176 || r.code == 177 || r.code == 420 || env.inMap(VisualStyleSub, r.code)
    case XRecordCodes => (r.code == SubclassCode && r.text == XRecordMarker) || env.inMap(XRecordSub, r.code)
  }

  predicate HasName(entries: seq<Entry>, name: string) {
    exists k :: 0 <= k < |entries| && entries[k].name == name
  }

  function FromAssign(o: Option<Template>, i: nat): Handled {
    match o
    case Some(t) => Taken(t, i)
    case None => Declined
  }

  /** readDictionary. 280 and 281 are read into a dictionary created for the
      call and then dropped, so they leave the template as it was; 3 adds an
      entry name (a name seen before is an error); 350/360 give the most
      recently added entry its handle (with no entry yet, an error). */
  function DictionaryCode(env: Env, r: Record, i: nat, t: Template): (h: Handled)
    requires t.body.DictionaryBody?
    ensures h.Declined? <==> !DictionaryClaims(env, r)
    ensures h.Taken? ==> h.at == i && h.t.body.DictionaryBody? && h.t.body.defaultEntry == t.body.defaultEntry
    ensures h.Broken? ==> h.at == i
    ensures (r.code == 280 || r.code == 281) && h.Taken? ==> h.t == t
    ensures r.code == 3 ==> (h.Broken? <==> HasName(t.body.entries, r.text))
    ensures r.code == 3 && h.Taken? ==> h.t.body.entries == t.body.entries + [Entry(r.text, None)]
    ensures (r.code == 350 || r.code == 360) && |t.body.entries| == 0 ==> h == Broken(MissingEntryName, i)
    ensures (r.code == 350 || r.code == 360) && h.Taken? ==>
              var n := |t.body.entries|;
              n > 0 && r.value.VHandle? &&
              h.t.body.entries == t.body.entries[..n - 1] + [Entry(t.body.entries[n - 1].name, Some(r.value.h))]
  {
    var entries := t.body.entries;
    if r.code == 280 then
      (match AsBool(r.value) case Got(_) => Taken(t, i) case WrongKind => Broken(InvalidValue, i))
    else if r.code == 281 then
      (match AsInt(r.value) case Got(_) => Taken(t, i) case WrongKind => Broken(InvalidValue, i))
    else if r.code == 3 then
      if HasName(entries, r.text) then Broken(DuplicateEntry, i)
      else Taken(t.(body := t.body.(entries := entries + [Entry(r.text, None)])), i)
    else if r.code == 350 || r.code == 360 then
      if |entries| == 0 then Broken(MissingEntryName, i)
      else
        match AsHandle(r.value)
        case WrongKind => Broken(InvalidValue, i)
        case Got(h) =>
          var last := Entry(entries[|entries| - 1].name, Some(h));
          Taken(t.(body := t.body.(entries := entries[..|entries| - 1] + [last])), i)
    else FromAssign(TryAssign(env, DictionarySub, t, r), i)
  }

  /** readDictionaryWithDefault: 340 is the default entry's handle; then the
      map of this subclass; then everything the plain dictionary reads. */
  function DictionaryWithDefaultCode(env: Env, r: Record, i: nat, t: Template): (h: Handled)
    requires t.body.DictionaryBody?
    ensures h.Declined? <==> !Claims(DictionaryWithDefaultCodes, env, r)
    ensures h.Taken? ==> h.at == i && h.t.body.DictionaryBody?
    ensures h.Broken? ==> h.at == i
    ensures r.code == 340 && h.Taken? ==> r.value.VHandle? && h.t == t.(body := t.body.(defaultEntry := Some(r.value.h)))
  {
    if r.code == 340 then
      match AsHandle(r.value)
      case Got(h) => Taken(t.(body := t.body.(defaultEntry := Some(h))), i)
      case WrongKind => Broken(InvalidValue, i)
    else
      match TryAssign(env, DictionaryWithDefaultSub, t, r)
      case Some(t') => Taken(t', i)
      case None => DictionaryCode(env, r, i, t)
  }

  /** readLayout: 330 is the paper-space block, 331 the last active viewport;
      other codes go to the layout map, then to the plot-settings map. */
  function LayoutCode(env: Env, r: Record, i: nat, t: Template): (h: Handled)
    requires t.body.LayoutBody?
    ensures h.Declined? <==> !Claims(LayoutCodes, env, r)
    ensures h.Taken? ==> h.at == i && h.t.body.LayoutBody?
    ensures h.Broken? ==> h.at == i && h.error == InvalidValue
    ensures r.code == 330 && h.Taken? ==> r.value.VHandle? && h.t == t.(body := t.body.(paperSpaceBlock := Some(r.value.h)))
    ensures r.code == 331 && h.Taken? ==> r.value.VHandle? && h.t == t.(body := t.body.(lastActiveViewport := Some(r.value.h)))
  {
    if r.code == 330 then
      match AsHandle(r.value)
      case Got(h) => Taken(t.(body := t.body.(paperSpaceBlock := Some(h))), i)
      case WrongKind => Broken(InvalidValue, i)
    else if r.code == 331 then
      match AsHandle(r.value)
      case Got(h) => Taken(t.(body := t.body.(lastActiveViewport := Some(h))), i)
      case WrongKind => Broken(InvalidValue, i)
    else
      match TryAssign(env, LayoutSub, t, r)
      case Some(t') => Taken(t', i)
      case None => FromAssign(TryAssign(env, PlotSettingsSub, t, r), i)
  }

  /** readXRecordEntries: every record from `j` up to the next start record
      becomes an entry, in order. */
  function XRecordEntries(rs: seq<Record>, j: nat, entries: seq<Record>): (r: Step<seq<Record>>)
    requires j <= |rs|
    ensures r.Next? <==> NextStart(rs, j) < |rs|
    ensures r.Next? ==> r.at == NextStart(rs, j) && r.value == entries + rs[j..r.at]
    ensures r.Fail? ==> r.error == EndOfRecords && r.at == |rs|
    decreases |rs| - j
  {
    if j == |rs| then Fail(EndOfRecords, j)
    else if rs[j].code == StartCode then Next(entries, j)
    else
      var r := XRecordEntries(rs, j + 1, entries + [rs[j]]);
      assert r.Next? ==> (entries + [rs[j]]) + rs[j + 1..r.at] == entries + rs[j..r.at];
      r
  }

  /** The handler of a kind, applied to the record under the cursor. */
  function HandleRecord(kind: CodesKind, env: Env, rs: seq<Record>, i: nat, t: Template): (h: Handled)
    requires i < |rs| && rs[i].code != StartCode && Matches(kind, t)
    ensures h.Declined? <==> !Claims(kind, env, rs[i])
    ensures h.Taken? ==> i <= h.at < |rs| && Matches(kind, h.t) && h.t.objectName == t.objectName
    ensures h.Taken? ==> h.t.common == t.common && h.t.extendedData == t.extendedData
    ensures h.Taken? ==> t.fields <= h.t.fields
    ensures h.Taken? ==> forall k :: |t.fields| <= k < |h.t.fields| ==> env.inMap(h.t.fields[k].0, h.t.fields[k].1.code)
    ensures h.Taken? && h.at > i ==>
              kind == XRecordCodes && rs[i].code == SubclassCode && rs[i].text == XRecordMarker && h.at == NextStart(rs, i)
    ensures kind == ScaleCodes && rs[i].code == 70 ==> h == Taken(t, i)
    ensures kind == VisualStyleCodes && (rs[i].code == 176 || rs[i].code == 177 || rs[i].code == 420) ==> h == Taken(t, i)
    ensures h.Broken? ==> i <= h.at <= |rs|
  {
    var r := rs[i];
    match kind
    case DictionaryCodes => DictionaryCode(env, r, i, t)
    case DictionaryWithDefaultCodes => DictionaryWithDefaultCode(env, r, i, t)
    case LayoutCodes => LayoutCode(env, r, i, t)
    case DictionaryVarCodes => FromAssign(TryAssign(env, DictionaryVarSub, t, r), i)
    case PdfDefinitionCodes => FromAssign(TryAssign(env, PdfDefinitionSub, t, r), i)
    case ScaleCodes =>
      // 70 is undocumented (always 0) and consumed without effect.
      if r.code == 70 then Taken(t, i) else FromAssign(TryAssign(env, ScaleSub, t, r), i)
    case VisualStyleCodes =>
      // 176, 177 and 420 are undocumented and consumed without effect.
      if r.code == 176 || r.code == 177 || r.code == 420 then Taken(t, i)
      else FromAssign(TryAssign(env, VisualStyleSub, t, r), i)
    case XRecordCodes =>
      if r.code == SubclassCode && r.text == XRecordMarker then
        match XRecordEntries(rs, i + 1, t.body.xentries)
        case Next(entries, k) => Taken(t.(body := XRecordBody(entries)), k)
        case Fail(e, k) => Broken(e, k)
      else FromAssign(TryAssign(env, XRecordSub, t, r), i)
  }

  /** readObjectCodes, from the record after the object's start record: runs
      to the next start record; each record is offered to the handler, and
      only a declined record reaches the common-code reader. A record that
      opens extended data is followed by the next record the common reader
      left; otherwise the cursor advances unless it already sits on a start
      record. */
  function ObjectCodes(kind: CodesKind, env: Env, rs: seq<Record>, i: nat, t: Template): (r: Step<Template>)
    requires i <= |rs| && Matches(kind, t)
    ensures r.Next? ==> r.at == NextStart(rs, i) && r.at < |rs| && Matches(kind, r.value)
    ensures r.Fail? ==> i <= r.at <= |rs|
    ensures NextStart(rs, i) == |rs| ==> r.Fail?
    ensures r.Next? ==> r.value.objectName == t.objectName
    ensures r.Next? ==> t.common <= r.value.common && t.fields <= r.value.fields
    ensures r.Next? ==> forall k :: |t.common| <= k < |r.value.common| ==> !Claims(kind, env, r.value.common[k])
    ensures r.Next? ==> forall k :: |t.fields| <= k < |r.value.fields| ==>
                          env.inMap(r.value.fields[k].0, r.value.fields[k].1.code)
    decreases |rs| - i
  {
    if i == |rs| then Fail(EndOfRecords, i)
    else if rs[i].code == StartCode then Next(t, i)
    else
      match HandleRecord(kind, env, rs, i, t)
      case Broken(e, j) => Fail(e, j)
      case Taken(t', j) =>
        if rs[j].code == StartCode then Next(t', j)
        else ObjectCodes(kind, env, rs, j + 1, t')
      case Declined =>
        var c := ReadCommonCodes(rs, i, t);
        if c.isExtendedData then
          NextStartSkip(rs, i, c.at);
          ObjectCodes(kind, env, rs, c.at, c.t)
        else ObjectCodes(kind, env, rs, i + 1, c.t)
  }

  /** The records of rs[i..k] that the kind's handler declines, in order. */
  function DeclinedRecords(kind: CodesKind, env: Env, rs: seq<Record>, i: nat, k: nat): seq<Record>
    requires i <= k <= |rs|
    decreases k - i
  {
    if i == k then [] else (if Claims(kind, env, rs[i]) then [] else [rs[i]]) + DeclinedRecords(kind, env, rs, i + 1, k)
  }

  /** One turn of readObjectCodes on a record that is neither a start
      record nor extended data, where the handler does not read ahead: the
      record is taken or logged, and the loop goes on with the next one. */
  lemma ObjectCodesStep(kind: CodesKind, env: Env, rs: seq<Record>, i: nat, t: Template)
    requires i < |rs| && rs[i].code != StartCode && rs[i].code != ExtendedDataCode && Matches(kind, t)
    requires !(kind == XRecordCodes && rs[i].code == SubclassCode && rs[i].text == XRecordMarker)
    ensures var h := HandleRecord(kind, env, rs, i, t);
            h.Taken? ==> ObjectCodes(kind, env, rs, i, t) == ObjectCodes(kind, env, rs, i + 1, h.t)
    ensures !Claims(kind, env, rs[i]) ==>
              ObjectCodes(kind, env, rs, i, t) == ObjectCodes(kind, env, rs, i + 1, t.(common := t.common + [rs[i]]))
  {
  }

  /** From record i to the next start record, nothing makes the loop read
      ahead: no record opens extended data and, for an XRecord, none opens
      its entry list. */
  predicate NoReadAhead(kind: CodesKind, rs: seq<Record>, i: nat)
    decreases |rs| - i
  {
    i <= |rs| &&
    (i == |rs| || rs[i].code == StartCode ||
     (rs[i].code != ExtendedDataCode &&
      !(kind == XRecordCodes && rs[i].code == SubclassCode && rs[i].text == XRecordMarker) &&
      NoReadAhead(kind, rs, i + 1)))
  }

  /** An object without extended data (and, for an XRecord, without its
      entry list) logs to the common codes exactly the records its handler
      declines, in stream order. */
  lemma {:induction false} DeclinedAreLogged(kind: CodesKind, env: Env, rs: seq<Record>, i: nat, t: Template,
                                             u: Template, at: nat)
    requires NoReadAhead(kind, rs, i) && Matches(kind, t)
    requires ObjectCodes(kind, env, rs, i, t) == Next(u, at)
    ensures i <= at && u.common == t.common + DeclinedRecords(kind, env, rs, i, at)
    ensures u.extendedData == t.extendedData
    decreases |rs| - i
  {
    if rs[i].code == StartCode {
      assert u == t && at == i && DeclinedRecords(kind, env, rs, i, at) == [];
      assert t.common + [] == t.common;
    } else {
      var t1 := DeclinedStep(kind, env, rs, i, t);
      DeclinedAreLogged(kind, env, rs, i + 1, t1, u, at);
      assert t1.common + DeclinedRecords(kind, env, rs, i + 1, at) == t.common + DeclinedRecords(kind, env, rs, i, at);
    }
  }

  /** One turn of the loop in DeclinedAreLogged: the record is taken, or
      logged to the common codes exactly when the handler declines it. */
  lemma DeclinedStep(kind: CodesKind, env: Env, rs: seq<Record>, i: nat, t: Template) returns (t1: Template)
    requires i < |rs| && rs[i].code != StartCode && NoReadAhead(kind, rs, i) && Matches(kind, t)
    requires ObjectCodes(kind, env, rs, i, t).Next?
    ensures Matches(kind, t1) && NoReadAhead(kind, rs, i + 1)
    ensures ObjectCodes(kind, env, rs, i, t) == ObjectCodes(kind, env, rs, i + 1, t1)
    ensures t1.common == t.common + (if Claims(kind, env, rs[i]) then [] else [rs[i]])
    ensures t1.extendedData == t.extendedData
  {
    ObjectCodesStep(kind, env, rs, i, t);
    var h := HandleRecord(kind, env, rs, i, t);
    if h.Broken? {
      assert false;
    } else if h.Taken? {
      t1 := h.t;
      assert t.common + [] == t.common;
    } else {
      t1 := t.(common := t.common + [rs[i]]);
    }
  }

  // ----- Dictionary entries round trip -----

  /** The records a dictionary's entries are written as: a name record (3)
      followed by a handle record (350) per entry. */
  function EntryRecords(es: seq<(string, Handle)>): (rs: seq<Record>)
    ensures |rs| == 2 * |es|
  {
    if |es| == 0 then []
    else [Record(3, es[0].0, VString(es[0].0)), Record(350, "", VHandle(es[0].1))] + EntryRecords(es[1..])
  }

  function AsEntries(es: seq<(string, Handle)>): (r: seq<Entry>)
    ensures |r| == |es|
  {
    if |es| == 0 then [] else [Entry(es[0].0, Some(es[0].1))] + AsEntries(es[1..])
  }

  predicate DistinctNames(es: seq<(string, Handle)>) {
    forall a, b :: 0 <= a < b < |es| ==> es[a].0 != es[b].0
  }

  lemma NewNameStaysNew(entries: seq<Entry>, e: Entry, name: string)
    requires !HasName(entries, name) && e.name != name
    ensures !HasName(entries + [e], name)
  {
  }

  /** A new name record adds an entry without a handle and moves on. */
  lemma NameRecordStep(env: Env, rs: seq<Record>, i: nat, t: Template, name: string)
    requires i < |rs| && rs[i] == Record(3, name, VString(name))
    requires t.body.DictionaryBody? && !HasName(t.body.entries, name)
    ensures ObjectCodes(DictionaryCodes, env, rs, i, t)
            == ObjectCodes(DictionaryCodes, env, rs, i + 1, t.(body := t.body.(entries := t.body.entries + [Entry(name, None)])))
  {
    var t1 := t.(body := t.body.(entries := t.body.entries + [Entry(name, None)]));
    assert HandleRecord(DictionaryCodes, env, rs, i, t) == Taken(t1, i);
  }

  /** A handle record completes the most recent entry and moves on. */
  lemma HandleRecordStep(env: Env, rs: seq<Record>, i: nat, t: Template, h: Handle)
    requires i < |rs| && rs[i] == Record(350, "", VHandle(h))
    requires t.body.DictionaryBody? && |t.body.entries| > 0
    ensures var es := t.body.entries;
            ObjectCodes(DictionaryCodes, env, rs, i, t)
            == ObjectCodes(DictionaryCodes, env, rs, i + 1,
                           t.(body := t.body.(entries := es[..|es| - 1] + [Entry(es[|es| - 1].name, Some(h))])))
  {
    var es := t.body.entries;
    var t1 := t.(body := t.body.(entries := es[..|es| - 1] + [Entry(es[|es| - 1].name, Some(h))]));
    assert HandleRecord(DictionaryCodes, env, rs, i, t) == Taken(t1, i);
  }

  /** One name record and one handle record add one complete entry. */
  lemma EntryPairStep(env: Env, rs: seq<Record>, i: nat, t: Template, name: string, h: Handle)
    requires i + 2 <= |rs| && rs[i] == Record(3, name, VString(name)) && rs[i + 1] == Record(350, "", VHandle(h))
    requires t.body.DictionaryBody? && !HasName(t.body.entries, name)
    ensures ObjectCodes(DictionaryCodes, env, rs, i, t)
            == ObjectCodes(DictionaryCodes, env, rs, i + 2, t.(body := t.body.(entries := t.body.entries + [Entry(name, Some(h))])))
  {
    var t1 := t.(body := t.body.(entries := t.body.entries + [Entry(name, None)]));
    NameRecordStep(env, rs, i, t, name);
    HandleRecordStep(env, rs, i + 1, t1, h);
    assert t1.body.entries[..|t1.body.entries| - 1] == t.body.entries;
  }

  /** The entries `es` are written from record i on: each as a name record
      followed by a handle record. */
  predicate EntriesAt(rs: seq<Record>, i: nat, es: seq<(string, Handle)>)
    decreases |es|
  {
    if |es| == 0 then i <= |rs|
    else
      i + 2 <= |rs| &&
      rs[i] == Record(3, es[0].0, VString(es[0].0)) && rs[i + 1] == Record(350, "", VHandle(es[0].1)) &&
      EntriesAt(rs, i + 2, es[1..])
  }

  lemma {:induction false} EntryRecordsAt(rs: seq<Record>, i: nat, es: seq<(string, Handle)>)
    requires i + 2 * |es| <= |rs| && rs[i..i + 2 * |es|] == EntryRecords(es)
    ensures EntriesAt(rs, i, es)
    decreases |es|
  {
    if |es| > 0 {
      var rest := es[1..];
      var span := rs[i..i + 2 * |es|];
      assert rs[i] == span[0] && rs[i + 1] == span[1];
      assert rs[i + 2..i + 2 + 2 * |rest|] == span[2..];
      EntryRecordsAt(rs, i + 2, rest);
    }
  }

  /** Each name of `es` is new when its entry is added after `entries` and
      the entries before it. */
  predicate NewNames(entries: seq<Entry>, es: seq<(string, Handle)>)
    decreases |es|
  {
    |es| == 0 || (!HasName(entries, es[0].0) && NewNames(entries + [Entry(es[0].0, Some(es[0].1))], es[1..]))
  }

  /** Distinct names, none of them already present, are new one by one. */
  lemma {:induction false} DistinctNamesAreNew(entries: seq<Entry>, es: seq<(string, Handle)>)
    requires DistinctNames(es) && forall k :: 0 <= k < |es| ==> !HasName(entries, es[k].0)
    ensures NewNames(entries, es)
    decreases |es|
  {
    if |es| > 0 {
      var e := Entry(es[0].0, Some(es[0].1));
      var rest := es[1..];
      forall k | 0 <= k < |rest|
        ensures !HasName(entries + [e], rest[k].0)
      {
        assert rest[k] == es[k + 1];
        NewNameStaysNew(entries, e, rest[k].0);
      }
      DistinctNamesAreNew(entries + [e], rest);
    }
  }

  /** The dictionary loop ends on a start record, with the template as it is. */
  lemma EndOfEntries(env: Env, rs: seq<Record>, i: nat, t: Template)
    requires i < |rs| && rs[i].code == StartCode && t.body.DictionaryBody?
    ensures ObjectCodes(DictionaryCodes, env, rs, i, t) == Next(t.(body := t.body.(entries := t.body.entries + [])), i)
  {
    assert t.body.entries + [] == t.body.entries;
  }

  /** The dictionary template with the entries `es` added after its own. */
  function WithEntries(t: Template, es: seq<(string, Handle)>): Template
    requires t.body.DictionaryBody?
  {
    t.(body := t.body.(entries := t.body.entries + AsEntries(es)))
  }

  lemma {:induction false} EntriesRead(env: Env, rs: seq<Record>, i: nat, t: Template, es: seq<(string, Handle)>)
    requires EntriesAt(rs, i, es) && i + 2 * |es| < |rs| && rs[i + 2 * |es|].code == StartCode
    requires t.body.DictionaryBody? && NewNames(t.body.entries, es)
    ensures ObjectCodes(DictionaryCodes, env, rs, i, t)
            == Next(WithEntries(t, es), i + 2 * |es|)
    decreases |es|
  {
    if |es| > 0 {
      var name := es[0].0;
      var h := es[0].1;
      EntryPairStep(env, rs, i, t, name, h);
      var t2 := t.(body := t.body.(entries := t.body.entries + [Entry(name, Some(h))]));
      EntriesRead(env, rs, i + 2, t2, es[1..]);
      assert AsEntries(es) == [Entry(name, Some(h))] + AsEntries(es[1..]);
      assert t2.body.entries + AsEntries(es[1..]) == t.body.entries + AsEntries(es);
      assert WithEntries(t2, es[1..]) == WithEntries(t, es);
    } else {
      EndOfEntries(env, rs, i, t);
    }
  }

  /** Reading a dictionary's entry records gives back its entries, in order,
      each with its handle, whatever the field maps contain. */
  lemma DictionaryRoundTrip(env: Env, rs: seq<Record>, i: nat, t: Template, es: seq<(string, Handle)>)
    requires i + 2 * |es| < |rs| && rs[i..i + 2 * |es|] == EntryRecords(es)
    requires rs[i + 2 * |es|].code == StartCode
    requires t.body.DictionaryBody? && DistinctNames(es)
    requires forall k :: 0 <= k < |es| ==> !HasName(t.body.entries, es[k].0)
    ensures ObjectCodes(DictionaryCodes, env, rs, i, t)
            == Next(WithEntries(t, es), i + 2 * |es|)
  {
    EntryRecordsAt(rs, i, es);
    DistinctNamesAreNew(t.body.entries, es);
    EntriesRead(env, rs, i, t, es);
  }

  /** A name added twice stops the object with DuplicateEntry. */
  lemma DuplicateNameFails(env: Env, rs: seq<Record>, i: nat, t: Template, k: nat)
    requires i < |rs| && rs[i].code == 3
    requires t.body.DictionaryBody? && k < |t.body.entries| && t.body.entries[k].name == rs[i].text
    ensures ObjectCodes(DictionaryCodes, env, rs, i, t) == Fail(DuplicateEntry, i)
  {
    assert HasName(t.body.entries, rs[i].text);
  }
}

=== FILE: dxf_objects.dfy ===
/** The OBJECTS-section reader: the section loop (Read), the dispatch on the
    object name (readObject), and the reading of objects whose name has no
    reader of its own. */
module DxfObjects {
  import opened Cad
  import opened DxfRecords
  import opened DxfHandlers
  import DxfDimAssoc
  import DxfSortEnts

  /** The value that ends the section. */
  const EndSection: string := "ENDSEC"

  // The object names the section reader dispatches on.
  const DictionaryName: string := "DICTIONARY"
  const DictionaryWithDefaultName: string := "ACDBDICTIONARYWDFLT"
  const LayoutName: string := "LAYOUT"
  const DictionaryVarName: string := "DICTIONARYVAR"
  const PdfDefinitionName: string := "PDFDEFINITION"
  const SortEntsName: string := "SORTENTSTABLE"
  const DimAssocName: string := "DIMASSOC"
  const ScaleName: string := "SCALE"
  const VisualStyleName: string := "VISUALSTYLE"
  const XRecordName: string := "XRECORD"

  /** The names that have a reader of their own. */
  predicate IsKnownName(name: string) {
    name in {DictionaryName, DictionaryWithDefaultName, LayoutName, DictionaryVarName, PdfDefinitionName,
             SortEntsName, DimAssocName, ScaleName, VisualStyleName, XRecordName}
  }

  /** The body a name's reader gives its template: each reader fills a body
      of its own shape, and a name without a reader yields the placeholder
      of an unknown object. */
  predicate BodyFor(name: string, b: Body) {
    if name == DictionaryName || name == DictionaryWithDefaultName then b.DictionaryBody?
    else if name == LayoutName then b.LayoutBody?
    else if name == XRecordName then b.XRecordBody?
    else if name == SortEntsName then b.SortEntsBody?
    else if name == DimAssocName then b.DimAssocBody?
    else if IsKnownName(name) then b == PlainBody
    else b == UnknownBody(name)
  }

  /** The notifications the section reader sends to the document builder. */
  datatype Note =
    | ObjectError(at: nat)                        // an object failed and was skipped (failsafe)
    | Unsupported(name: string, registered: bool) // an object name without a reader

  /** One object's result and the notifications sent while reading it. */
  datatype ObjectRead = ObjectRead(result: Step<Option<Template>>, notes: seq<Note>)

  function Lift(s: Step<Template>): (r: Step<Option<Template>>)
    ensures r.at == s.at && r.Next? == s.Next?
    ensures r.Next? ==> r.value == Some(s.value)
    ensures r.Fail? ==> r.error == s.error
  {
    match s
    case Next(t, k) => Next(Some(t), k)
    case Fail(e, k) => Fail(e, k)
  }

  /** The do-while loop of an object without a reader, entered on the record
      after the start record: the body runs before the first test, so that
      record is consumed whatever it is. With a placeholder template and the
      keep-unknown flag the record goes to the common-code reader (after
      extended data, the loop goes straight to the test); otherwise it is
      skipped. The loop ends on the next start record. */
  function UnknownFrom(env: Env, rs: seq<Record>, j: nat, t: Option<Template>): (r: Step<Option<Template>>)
    requires j <= |rs|
    ensures r.Fail? <==> j == |rs| || NextStart(rs, j + 1) == |rs|
    ensures r.Fail? ==> r.error == EndOfRecords && r.at == |rs|
    ensures r.Next? ==> r.at == NextStart(rs, j + 1) < |rs|
    ensures r.Next? ==> (r.value.Some? <==> t.Some?)
    ensures r.Next? && (t.None? || !env.keepUnknown) ==> r.value == t
    ensures r.Next? && t.Some? ==>
              r.value.value.objectName == t.value.objectName && r.value.value.body == t.value.body &&
              t.value.common <= r.value.value.common && t.value.extendedData <= r.value.value.extendedData
    decreases |rs| - j
  {
    if j == |rs| then Fail(EndOfRecords, j)
    else
      var (t', k) :=
        if env.keepUnknown && t.Some? then
          var c := ReadCommonCodes(rs, j, t.value);
          (Some(c.t), if c.isExtendedData then c.at else j + 1)
        else (t, j + 1);
      NextStartSkip(rs, j + 1, k);
      if k == |rs| then Fail(EndOfRecords, k)
      else if rs[k].code == StartCode then Next(t', k)
      else UnknownFrom(env, rs, k, t')
  }

  /** readObject, on an object's start record: the object name picks the
      reader. Names without a reader are announced; only a name registered in
      the document's class table yields a (placeholder) template. */
  function ReadObject(env: Env, rs: seq<Record>, i: nat): (o: ObjectRead)
    requires i < |rs|
    ensures o.result.Next? ==> i < o.result.at < |rs| && rs[o.result.at].code == StartCode
    ensures o.result.Fail? ==> i < o.result.at <= |rs|
    ensures o.result.Next? && o.result.value.Some? ==> o.result.value.value.objectName == rs[i].text
    ensures o.result.Next? && o.result.value.Some? ==> BodyFor(rs[i].text, o.result.value.value.body)
    ensures IsKnownName(rs[i].text) ==> o.notes == [] && (o.result.Next? ==> o.result.value.Some?)
    ensures !IsKnownName(rs[i].text) ==>
              o.notes == [Unsupported(rs[i].text, rs[i].text in env.classes)] &&
              (o.result.Next? ==> (o.result.value.Some? <==> rs[i].text in env.classes))
  {
    var name := rs[i].text;
    if name == DictionaryName then
      ObjectRead(Lift(ObjectCodes(DictionaryCodes, env, rs, i + 1, NewTemplate(name, DictionaryBody([], None)))), [])
    else if name == DictionaryWithDefaultName then
      ObjectRead(Lift(ObjectCodes(DictionaryWithDefaultCodes, env, rs, i + 1, NewTemplate(name, DictionaryBody([], None)))), [])
    else if name == LayoutName then
      ObjectRead(Lift(ObjectCodes(LayoutCodes, env, rs, i + 1, NewTemplate(name, LayoutBody(None, None)))), [])
    else if name == DictionaryVarName then
      ObjectRead(Lift(ObjectCodes(DictionaryVarCodes, env, rs, i + 1, NewTemplate(name, PlainBody))), [])
    else if name == PdfDefinitionName then
      ObjectRead(Lift(ObjectCodes(PdfDefinitionCodes, env, rs, i + 1, NewTemplate(name, PlainBody))), [])
    else if name == SortEntsName then
      ObjectRead(Lift(DxfSortEnts.ReadSortEnts(name, rs, i)), [])
    else if name == DimAssocName then
      ObjectRead(Lift(DxfDimAssoc.ReadDimAssoc(name, rs, i)), [])
    else if name == ScaleName then
      ObjectRead(Lift(ObjectCodes(ScaleCodes, env, rs, i + 1, NewTemplate(name, PlainBody))), [])
    else if name == VisualStyleName then
      ObjectRead(Lift(ObjectCodes(VisualStyleCodes, env, rs, i + 1, NewTemplate(name, PlainBody))), [])
    else if name == XRecordName then
      ObjectRead(Lift(ObjectCodes(XRecordCodes, env, rs, i + 1, NewTemplate(name, XRecordBody([])))), [])
    else
      var registered := name in env.classes;
      var t := if registered then Some(NewTemplate(name, UnknownBody(name))) else None;
      ObjectRead(UnknownFrom(env, rs, i + 1, t), [Unsupported(name, registered)])
  }

  /** `templates` are what the objects starting at `origins` produced, one
      each, in stream order. */
  predicate FromObjects(env: Env, rs: seq<Record>, templates: seq<Template>, origins: seq<nat>) {
    |templates| == |origins| &&
    (forall a, b :: 0 <= a < b < |origins| ==> origins[a] < origins[b]) &&
    forall k :: 0 <= k < |origins| ==>
      origins[k] < |rs| && ReadObject(env, rs, origins[k]).result.Next? &&
      ReadObject(env, rs, origins[k]).result.value == Some(templates[k])
  }

  lemma FromObjectsAppend(env: Env, rs: seq<Record>, acc: seq<Template>, origins: seq<nat>, i: nat, t: Template)
    requires FromObjects(env, rs, acc, origins) && forall k :: 0 <= k < |origins| ==> origins[k] < i
    requires i < |rs| && ReadObject(env, rs, i).result.Next? && ReadObject(env, rs, i).result.value == Some(t)
    ensures FromObjects(env, rs, acc + [t], origins + [i])
  {
    var acc', origins' := acc + [t], origins + [i];
    forall k | 0 <= k < |origins'|
      ensures origins'[k] < |rs| && ReadObject(env, rs, origins'[k]).result.Next?
      ensures ReadObject(env, rs, origins'[k]).result.value == Some(acc'[k])
    {
      if k < |origins| {
        assert origins'[k] == origins[k] && acc'[k] == acc[k];
      }
    }
  }

  /** The section's outcome: the templates handed to the builder (with the
      start record each came from) and the notifications, ending on the
      end-of-section record; or the error that stopped the section. */
  datatype SectionResult =
    | Section(templates: seq<Template>, origins: seq<nat>, notes: seq<Note>, at: nat)
    | Fatal(error: ReadError, at: nat, notes: seq<Note>)

  /** One turn of Read's loop: the state it hands to the next turn, or the
      error that stops the section. */
  datatype Turn =
    | Again(templates: seq<Template>, origins: seq<nat>, notes: seq<Note>, at: nat)
    | Stop(error: ReadError, at: nat, notes: seq<Note>)

  /** The body of Read's loop, on an object's record. A template that is not
      null is added; a failed object stops the section unless the reader is
      failsafe, in which case it is announced and the records up to the next
      start record are skipped. */
  function SectionTurn(env: Env, rs: seq<Record>, i: nat, acc: seq<Template>, origins: seq<nat>,
                       notes: seq<Note>): (r: Turn)
    requires i < |rs| && FromObjects(env, rs, acc, origins)
    requires forall k :: 0 <= k < |origins| ==> origins[k] < i
    ensures notes <= r.notes
    ensures r.Again? ==> i < r.at <= |rs| && FromObjects(env, rs, r.templates, r.origins)
    ensures r.Again? ==> acc <= r.templates && origins <= r.origins && |r.origins| <= |origins| + 1
    ensures r.Again? ==> forall k :: |origins| <= k < |r.origins| ==> r.origins[k] == i
    ensures r.Stop? && env.failsafe ==> r.error == EndOfRecords && r.at == |rs|
    ensures !env.failsafe ==> forall k :: |notes| <= k < |r.notes| ==> !r.notes[k].ObjectError?
    ensures var o := ReadObject(env, rs, i);
            o.result.Next? && o.result.value.Some? ==>
              r == Again(acc + [o.result.value.value], origins + [i], notes + o.notes, o.result.at)
    ensures var o := ReadObject(env, rs, i);
            o.result.Next? && o.result.value.None? ==> r == Again(acc, origins, notes + o.notes, o.result.at)
    ensures var o := ReadObject(env, rs, i);
            o.result.Fail? && !env.failsafe ==> r == Stop(o.result.error, o.result.at, notes + o.notes)
    ensures var o := ReadObject(env, rs, i);
            o.result.Fail? && env.failsafe ==>
              r.notes == notes + o.notes + [ObjectError(o.result.at)] &&
              (r.Again? <==> NextStart(rs, o.result.at) < |rs|) &&
              (r.Again? ==> r.templates == acc && r.origins == origins && r.at == NextStart(rs, o.result.at))
  {
    var o := ReadObject(env, rs, i);
    match o.result
    case Next(None, k) => Again(acc, origins, notes + o.notes, k)
    case Next(Some(t), k) =>
      FromObjectsAppend(env, rs, acc, origins, i, t);
      Again(acc + [t], origins + [i], notes + o.notes, k)
    case Fail(e, j) =>
      if !env.failsafe then Stop(e, j, notes + o.notes)
      else
        var k := NextStart(rs, j);
        if k == |rs| then Stop(EndOfRecords, k, notes + o.notes + [ObjectError(j)])
        else Again(acc, origins, notes + o.notes + [ObjectError(j)], k)
  }

  /** The loop of Read, on the record under the cursor: it ends on the
      end-of-section record, or when a turn stops it. */
  function SectionLoop(env: Env, rs: seq<Record>, i: nat, acc: seq<Template>, origins: seq<nat>,
                       notes: seq<Note>): (r: SectionResult)
    requires i <= |rs| && FromObjects(env, rs, acc, origins)
    requires forall k :: 0 <= k < |origins| ==> origins[k] < i
    ensures notes <= r.notes
    ensures r.Section? ==> i <= r.at < |rs| && rs[r.at].text == EndSection
    ensures r.Section? ==> FromObjects(env, rs, r.templates, r.origins) && acc <= r.templates && origins <= r.origins
    ensures r.Section? ==> forall k :: |origins| <= k < |r.origins| ==> i <= r.origins[k] < r.at
    ensures r.Fatal? && env.failsafe ==> r.error == EndOfRecords && r.at == |rs|
    ensures !env.failsafe ==> forall k :: |notes| <= k < |r.notes| ==> !r.notes[k].ObjectError?
    decreases |rs| - i
  {
    if i == |rs| then Fatal(EndOfRecords, i, notes)
    else if rs[i].text == EndSection then Section(acc, origins, notes, i)
    else
      match SectionTurn(env, rs, i, acc, origins, notes)
      case Stop(e, j, ns) => Fatal(e, j, ns)
      case Again(ts, os, ns, k) => SectionLoop(env, rs, k, ts, os, ns)
  }

  /** Where Read's loop goes after the object at i: past the object or, when
      the failsafe reader skips a failed object, to the next start record;
      None when the section stops there. */
  function NextCursor(env: Env, rs: seq<Record>, i: nat): (k: Option<nat>)
    requires i < |rs|
    ensures k.Some? ==> i < k.value < |rs|
  {
    var o := ReadObject(env, rs, i);
    if o.result.Next? then Some(o.result.at)
    else if env.failsafe && NextStart(rs, o.result.at) < |rs| then Some(NextStart(rs, o.result.at))
    else None
  }

  /** Read's loop, started on record i, comes to record v: following
      NextCursor from i, without passing the end-of-section record. */
  predicate Visits(env: Env, rs: seq<Record>, i: nat, v: nat)
    decreases |rs| - i
  {
    i == v ||
    (i < |rs| && rs[i].text != EndSection && NextCursor(env, rs, i).Some? &&
     Visits(env, rs, NextCursor(env, rs, i).value, v))
  }

  /** The record at v starts an object whose read yields a template. */
  predicate Yields(env: Env, rs: seq<Record>, v: nat) {
    v < |rs| && rs[v].text != EndSection &&
    ReadObject(env, rs, v).result.Next? && ReadObject(env, rs, v).result.value.Some?
  }

  /** A completed section hands over exactly the templates of the objects the
      loop visits: every origin is a visited record, and every visited record
      whose object yields a template is an origin. */
  lemma {:induction false} SectionLoopExact(env: Env, rs: seq<Record>, i: nat, acc: seq<Template>, origins: seq<nat>,
                                            notes: seq<Note>, r: SectionResult)
    requires i <= |rs| && FromObjects(env, rs, acc, origins)
    requires forall k :: 0 <= k < |origins| ==> origins[k] < i
    requires SectionLoop(env, rs, i, acc, origins, notes) == r && r.Section?
    ensures Visits(env, rs, i, r.at)
    ensures forall k :: |origins| <= k < |r.origins| ==> Visits(env, rs, i, r.origins[k])
    ensures forall v :: Visits(env, rs, i, v) && Yields(env, rs, v) ==> v in r.origins
    decreases |rs| - i
  {
    if i < |rs| && rs[i].text != EndSection {
      match SectionTurn(env, rs, i, acc, origins, notes)
      case Stop(_, _, _) =>
        assert false;
      case Again(ts, os, ns, k) =>
        assert NextCursor(env, rs, i) == Some(k);
        assert r == SectionLoop(env, rs, k, ts, os, ns);
        SectionLoopExact(env, rs, k, ts, os, ns, r);
        forall v | Visits(env, rs, i, v) && Yields(env, rs, v)
          ensures v in r.origins
        {
          if v == i {
            assert os == origins + [i];
            assert os[|origins|] == r.origins[|origins|];
          }
        }
    }
  }

  /** Read: the cursor first moves from the section's name record to the
      first object. */
  function ReadSection(env: Env, rs: seq<Record>): (r: SectionResult)
    ensures r.Section? ==> 0 < r.at < |rs| && rs[r.at].text == EndSection && FromObjects(env, rs, r.templates, r.origins)
    ensures r.Section? ==> forall k :: 0 <= k < |r.origins| ==> 0 < r.origins[k] < r.at
    ensures r.Fatal? && env.failsafe ==> r.error == EndOfRecords && r.at == |rs|
    ensures !env.failsafe ==> forall k :: 0 <= k < |r.notes| ==> !r.notes[k].ObjectError?
  {
    if |rs| == 0 then Fatal(EndOfRecords, 0, []) else SectionLoop(env, rs, 1, [], [], [])
  }

  /** Read hands over, in stream order, the template of every object its
      loop visits from the record after the section's name that yields one,
      and no other. */
  lemma ReadSectionExact(env: Env, rs: seq<Record>)
    ensures var r := ReadSection(env, rs);
            r.Section? ==>
              (forall k :: 0 <= k < |r.origins| ==> Visits(env, rs, 1, r.origins[k])) &&
              (forall v :: Visits(env, rs, 1, v) && Yields(env, rs, v) ==> v in r.origins)
  {
    var r := ReadSection(env, rs);
    if |rs| > 0 && r.Section? {
      SectionLoopExact(env, rs, 1, [], [], [], r);
    }
  }

  /** An object read through readObjectCodes that has no records ends on the
      start record right after its own. */
  lemma EmptyKnownObjectStops(env: Env, rs: seq<Record>, i: nat)
    requires i + 1 < |rs| && rs[i].text == ScaleName && rs[i + 1].code == StartCode
    ensures ReadObject(env, rs, i).result == Next(Some(NewTemplate(ScaleName, PlainBody)), i + 1)
  {
  }

  /** An object without a reader consumes the record after its start record
      before testing for the next start record: when it has no records, the
      next object's start record is taken as its own and that object is
      skipped up to the start record after it. */
  lemma EmptyUnknownObjectSwallowsNext(env: Env, rs: seq<Record>, i: nat)
    requires i + 1 < |rs| && !IsKnownName(rs[i].text) && rs[i + 1].code == StartCode
    ensures ReadObject(env, rs, i).result.at != i + 1
    ensures ReadObject(env, rs, i).result.Next? ==> ReadObject(env, rs, i).result.at == NextStart(rs, i + 2)
  {
  }
}

=== FILE: dxf_records.dfy ===
/** The tagged record stream of a DXF section and the template an object
    reader fills from it. A cursor is an index into the record sequence; the
    record under the cursor is `rs[i]`, and there is no record at `|rs|`:
    looking at it, or moving past it, fails with EndOfRecords. */
module DxfRecords {
  import opened Cad

  /** The typed value the text reader parses from the line after a code. */
  datatype Value = VString(s: string) | VInt(i: int) | VDouble(d: Double) | VBool(b: bool) | VHandle(h: Handle)

  /** One (group code, value) pair; `text` is the value line as read. */
  datatype Record = Record(code: int, text: string, value: Value)

  /** Group code 0 starts every object (and ends the previous one). */
  const StartCode: int := 0

  /** Group code 100 is a subclass marker. */
  const SubclassCode: int := 100

  /** Group code 1001 opens a block of extended data. */
  const ExtendedDataCode: int := 1001

  /** The group codes that extended data is made of. */
  predicate IsExtendedDataCode(code: int) {
    1000 <= code <= 1071
  }

  /** The first start record at or after `i`, or |rs| when there is none. */
  function NextStart(rs: seq<Record>, i: nat): (k: nat)
    requires i <= |rs|
    ensures i <= k <= |rs|
    ensures k < |rs| ==> rs[k].code == StartCode
    ensures forall j :: i <= j < k ==> rs[j].code != StartCode
    decreases |rs| - i
  {
    if i == |rs| || rs[i].code == StartCode then i else NextStart(rs, i + 1)
  }

  /** A start record cannot lie in a span that holds none. */
  lemma {:induction false} NextStartSkip(rs: seq<Record>, i: nat, j: nat)
    requires i <= j <= |rs|
    requires forall k :: i <= k < j ==> rs[k].code != StartCode
    ensures NextStart(rs, i) == NextStart(rs, j)
    decreases j - i
  {
    if i < j {
      NextStartSkip(rs, i + 1, j);
    }
  }

  /** The first record at or after `i` with the given code, or |rs|. */
  function FirstWith(rs: seq<Record>, i: nat, code: int): (k: nat)
    requires i <= |rs|
    ensures i <= k <= |rs|
    ensures k < |rs| ==> rs[k].code == code
    ensures forall j :: i <= j < k ==> rs[j].code != code
    decreases |rs| - i
  {
    if i == |rs| || rs[i].code == code then i else FirstWith(rs, i + 1, code)
  }

  /** The number of records with the given code in rs[lo..hi]. */
  function CountCode(rs: seq<Record>, lo: nat, hi: nat, code: int): nat
    requires lo <= hi <= |rs|
    decreases hi - lo
  {
    if lo == hi then 0 else (if rs[lo].code == code then 1 else 0) + CountCode(rs, lo + 1, hi, code)
  }

  lemma {:induction false} CountCodeSplit(rs: seq<Record>, lo: nat, mid: nat, hi: nat, code: int)
    requires lo <= mid <= hi <= |rs|
    ensures CountCode(rs, lo, hi, code) == CountCode(rs, lo, mid, code) + CountCode(rs, mid, hi, code)
    decreases mid - lo
  {
    if lo < mid {
      CountCodeSplit(rs, lo + 1, mid, hi, code);
    }
  }

  /** The positions of the records with the given code in rs[lo..hi], in
      increasing order. */
  function CodePositions(rs: seq<Record>, lo: nat, hi: nat, code: int): (ps: seq<nat>)
    requires lo <= hi <= |rs|
    ensures |ps| == CountCode(rs, lo, hi, code)
    ensures forall n :: 0 <= n < |ps| ==> lo <= ps[n] < hi && rs[ps[n]].code == code
    decreases hi - lo
  {
    if lo == hi then [] else (if rs[lo].code == code then [lo] else []) + CodePositions(rs, lo + 1, hi, code)
  }

  lemma {:induction false} CodePositionsSplit(rs: seq<Record>, lo: nat, mid: nat, hi: nat, code: int)
    requires lo <= mid <= hi <= |rs|
    ensures CodePositions(rs, lo, hi, code) == CodePositions(rs, lo, mid, code) + CodePositions(rs, mid, hi, code)
    decreases mid - lo
  {
    if lo < mid {
      CodePositionsSplit(rs, lo + 1, mid, hi, code);
      var head := if rs[lo].code == code then [lo] else [];
      assert head + (CodePositions(rs, lo + 1, mid, code) + CodePositions(rs, mid, hi, code))
             == (head + CodePositions(rs, lo + 1, mid, code)) + CodePositions(rs, mid, hi, code);
    }
  }

  /** The value of the last record with the given code in rs[lo..hi], if any:
      what a reader that overwrites a field on every such record ends with. */
  function LastValue(rs: seq<Record>, lo: nat, hi: nat, code: int): (o: Option<Value>)
    requires lo <= hi <= |rs|
    decreases hi - lo
  {
    if lo == hi then None
    else if rs[hi - 1].code == code then Some(rs[hi - 1].value)
    else LastValue(rs, lo, hi - 1, code)
  }

  /** The last value of a span is the value of one of its records. */
  lemma {:induction false} LastValueFrom(rs: seq<Record>, lo: nat, hi: nat, code: int)
    requires lo <= hi <= |rs|
    ensures LastValue(rs, lo, hi, code).Some? ==>
              exists m :: lo <= m < hi && rs[m].code == code && rs[m].value == LastValue(rs, lo, hi, code).value
    decreases hi - lo
  {
    if lo < hi && rs[hi - 1].code != code {
      LastValueFrom(rs, lo, hi - 1, code);
    }
  }

  /** The last value of a span, seen from its front: the rest of the span
      wins, and the first record counts only when the rest has none. */
  lemma {:induction false} LastValueFront(rs: seq<Record>, lo: nat, hi: nat, code: int)
    requires lo < hi <= |rs|
    ensures LastValue(rs, lo, hi, code)
            == if LastValue(rs, lo + 1, hi, code).Some? then LastValue(rs, lo + 1, hi, code)
               else if rs[lo].code == code then Some(rs[lo].value) else None
    decreases hi - lo
  {
    if lo + 1 < hi && rs[hi - 1].code != code {
      LastValueFront(rs, lo, hi - 1, code);
    }
  }

  /** The end of the run of extended-data records starting at `i`. */
  function ExtendedDataEnd(rs: seq<Record>, i: nat): (k: nat)
    requires i <= |rs|
    ensures i <= k <= |rs|
    ensures k < |rs| ==> !IsExtendedDataCode(rs[k].code)
    ensures forall j :: i <= j < k ==> IsExtendedDataCode(rs[j].code)
    decreases |rs| - i
  {
    if i == |rs| || !IsExtendedDataCode(rs[i].code) then i else ExtendedDataEnd(rs, i + 1)
  }

  /** Errors raised while reading one object. */
  datatype ReadError =
    | EndOfRecords       // the records ran out
    | InvalidValue       // a typed accessor met a value of another kind
    | DuplicateEntry     // a dictionary entry name added twice
    | MissingEntryName   // an entry handle with no entry name before it

  /** The outcome of a reader routine: its value and the cursor it leaves,
      or the error and the cursor at which it was raised. */
  datatype Step<+T> = Next(value: T, at: nat) | Fail(error: ReadError, at: nat)

  // ----- Typed accessors (ValueAsHandle, ValueAsInt, ...) -----

  datatype Access<+T> = Got(value: T) | WrongKind

  function AsHandle(v: Value): Access<Handle> {
    if v.VHandle? then Got(v.h) else WrongKind
  }

  function AsInt(v: Value): Access<int> {
    if v.VInt? then Got(v.i) else WrongKind
  }

  function AsBool(v: Value): Access<bool> {
    if v.VBool? then Got(v.b) else WrongKind
  }

  function AsDouble(v: Value): Access<Double> {
    if v.VDouble? then Got(v.d) else WrongKind
  }

  /** The handle a last value gives a field that starts as `dflt`. */
  function OptHandle(o: Option<Value>, dflt: Option<Handle>): Option<Handle> {
    if o.Some? && o.value.VHandle? then Some(o.value.h) else dflt
  }

  /** The integer a last value gives a field that starts as `dflt`. */
  function OptInt(o: Option<Value>, dflt: Option<int>): Option<int> {
    if o.Some? && o.value.VInt? then Some(o.value.i) else dflt
  }

  /** The flag a last value gives a field that starts as `dflt`. */
  function OptBool(o: Option<Value>, dflt: Option<bool>): Option<bool> {
    if o.Some? && o.value.VBool? then Some(o.value.b) else dflt
  }

  // ----- Templates -----

  /** The subclass sections of the field maps (DxfMap) that the generic field
      assignment consults. */
  datatype Subclass =
    | DictionarySub | DictionaryWithDefaultSub | LayoutSub | PlotSettingsSub
    | ScaleSub | VisualStyleSub | XRecordSub | DictionaryVarSub | PdfDefinitionSub

  /** One named entry of a dictionary, with the handle of the object it names
      once a 350/360 record has supplied it. */
  datatype Entry = Entry(name: string, handle: Option<Handle>)

  /** One object snap point reference of a dimension associativity. */
  datatype SnapRef = SnapRef(snapType: int, subentType: int, gsMarker: int, parameter: Double,
                             point: XYZ, hasLastPointRef: bool)

  const DefaultSnapRef: SnapRef := SnapRef(0, 0, 0, ZeroDouble, ZeroXYZ, false)

  /** The type-specific part of a template. */
  datatype Body =
    | DictionaryBody(entries: seq<Entry>, defaultEntry: Option<Handle>)
    | LayoutBody(paperSpaceBlock: Option<Handle>, lastActiveViewport: Option<Handle>)
    | XRecordBody(xentries: seq<Record>)
    | PlainBody
    | SortEntsBody(blockOwner: Option<Handle>, pairs: seq<(Handle, Handle)>)
    | DimAssocBody(dimension: Option<Handle>, associativity: Option<int>, transSpace: Option<bool>,
                   rotatedType: Option<int>, pointRefs: Option<seq<SnapRef>>,
                   geometryHandles: Option<seq<Handle>>)
    | UnknownBody(className: string)

  /** A template: the object name, the records handed to the common-code
      reader (handle, owner, reactors, ...), the extended-data blocks, the
      records the field maps accepted (with the subclass that accepted them),
      and the type-specific body. */
  datatype Template = Template(objectName: string, common: seq<Record>, extendedData: seq<seq<Record>>,
                               fields: seq<(Subclass, Record)>, body: Body)

  function NewTemplate(name: string, body: Body): Template {
    Template(name, [], [], [], body)
  }

  /** The collaborators of the reader that are not modelled: the field maps
      (whether a subclass map has a property for a code), the document's DXF
      class table, and the two reading flags. */
  datatype Env = Env(inMap: (Subclass, int) -> bool, classes: set<string>, failsafe: bool, keepUnknown: bool)

  /** tryAssignCurrentValue: a code that the subclass map knows is assigned
      to the object; any other code is declined. */
  function TryAssign(env: Env, sub: Subclass, t: Template, r: Record): (o: Option<Template>)
    ensures o.Some? <==> env.inMap(sub, r.code)
    ensures o.Some? ==> o.value == t.(fields := t.fields + [(sub, r)])
  {
    if env.inMap(sub, r.code) then Some(t.(fields := t.fields + [(sub, r)])) else None
  }

  /** The common-code reader's answer: the template, the cursor it leaves,
      and whether the record opened extended data. */
  datatype CommonRead = CommonRead(t: Template, at: nat, isExtendedData: bool)

  /** readCommonCodes: a 1001 record and the extended-data run after it become
      one extended-data block and the cursor moves past them; any other record
      is logged as common data and the cursor stays on it. */
  function ReadCommonCodes(rs: seq<Record>, i: nat, t: Template): (r: CommonRead)
    requires i < |rs|
    ensures r.isExtendedData <==> rs[i].code == ExtendedDataCode
    ensures r.isExtendedData ==> i < r.at <= |rs| && r.t == t.(extendedData := t.extendedData + [rs[i..r.at]])
    ensures r.isExtendedData ==> r.at == |rs| || !IsExtendedDataCode(rs[r.at].code)
    ensures r.isExtendedData ==> forall m :: i < m < r.at ==> IsExtendedDataCode(rs[m].code)
    ensures !r.isExtendedData ==> r.at == i && r.t == t.(common := t.common + [rs[i]])
  {
    if rs[i].code == ExtendedDataCode then
      var k := ExtendedDataEnd(rs, i + 1);
      CommonRead(t.(extendedData := t.extendedData + [rs[i..k]]), k, true)
    else
      CommonRead(t.(common := t.common + [rs[i]]), i, false)
  }

  /** readCommonObjectData: every record up to the first subclass marker is
      handed to the common-code log; the cursor stops on the marker. Records
      running out first is an error. */
  function CommonObjectData(rs: seq<Record>, j: nat, t: Template): (r: Step<Template>)
    requires j <= |rs|
    ensures r.Next? <==> FirstWith(rs, j, SubclassCode) < |rs|
    ensures r.Next? ==> r.at == FirstWith(rs, j, SubclassCode) && r.value == t.(common := t.common + rs[j..r.at])
    ensures r.Fail? ==> r.error == EndOfRecords && r.at == |rs|
    decreases |rs| - j
  {
    if j == |rs| then Fail(EndOfRecords, j)
    else if rs[j].code == SubclassCode then Next(t, j)
    else
      var r := CommonObjectData(rs, j + 1, t.(common := t.common + [rs[j]]));
      assert r.Next? ==> (t.common + [rs[j]]) + rs[j + 1..r.at] == t.common + rs[j..r.at];
      r
  }
}

=== FILE: dxf_sortents.dfy ===
/** The sort-entities table reader (readSortentsTable): the block owner and
    the (sort handle, entity) pairs. */
module DxfSortEnts {
  import opened Cad
  import opened DxfRecords

  /** The owner read so far, the halves of the pair being assembled, and the
      pairs already closed. */
  datatype SortState = SortState(owner: Option<Handle>, item1: Option<Handle>, item2: Option<Handle>,
                                 pairs: seq<(Handle, Handle)>)

  /** The codes the table reads as handles: 5 (sort handle), 330 (owner),
      331 (entity). */
  predicate IsSortCode(code: int) {
    code == 5 || code == 330 || code == 331
  }

  /** One record: 5 and 331 fill one half of the pending pair, 330 sets the
      owner, anything else is skipped; once both halves are present the pair
      is closed and the halves are cleared. */
  function SortRecord(st: SortState, r: Record): (a: Access<SortState>)
    requires !(st.item1.Some? && st.item2.Some?)
    ensures a.Got? <==> !IsSortCode(r.code) || r.value.VHandle?
    ensures a.Got? ==> !(a.value.item1.Some? && a.value.item2.Some?)
    ensures a.Got? ==> a.value.owner == (if r.code == 330 then Some(r.value.h) else st.owner)
    ensures a.Got? && r.code == 5 && st.item2.Some? ==>
              a.value.pairs == st.pairs + [(r.value.h, st.item2.value)] && a.value.item1.None? && a.value.item2.None?
    ensures a.Got? && r.code == 331 && st.item1.Some? ==>
              a.value.pairs == st.pairs + [(st.item1.value, r.value.h)] && a.value.item1.None? && a.value.item2.None?
    ensures a.Got? && r.code == 5 && st.item2.None? ==> a.value == st.(item1 := Some(r.value.h))
    ensures a.Got? && r.code == 331 && st.item1.None? ==> a.value == st.(item2 := Some(r.value.h))
    ensures a.Got? && r.code != 5 && r.code != 331 ==> a.value.pairs == st.pairs
  {
    var updated: Access<SortState> :=
      if !IsSortCode(r.code) then Got(st)
      else
        match AsHandle(r.value)
        case WrongKind => WrongKind
        case Got(h) =>
          Got(if r.code == 5 then st.(item1 := Some(h))
              else if r.code == 330 then st.(owner := Some(h))
              else st.(item2 := Some(h)));
    match updated
    case WrongKind => WrongKind
    case Got(s) =>
      if s.item1.Some? && s.item2.Some? then
        Got(s.(item1 := None, item2 := None, pairs := s.pairs + [(s.item1.value, s.item2.value)]))
      else Got(s)
  }

  /** The record loop after the subclass marker, up to the next start record.
      The owner is the last 330 value; pairs are only ever appended. */
  function SortLoop(rs: seq<Record>, j: nat, st: SortState): (r: Step<SortState>)
    requires j <= |rs| && !(st.item1.Some? && st.item2.Some?)
    ensures r.Next? ==> r.at == NextStart(rs, j) < |rs|
    ensures r.Fail? ==> j <= r.at <= |rs|
    ensures r.Next? ==> forall m :: j <= m < r.at && IsSortCode(rs[m].code) ==> rs[m].value.VHandle?
    ensures r.Next? ==> st.pairs <= r.value.pairs
    ensures r.Next? ==> r.value.owner == OptHandle(LastValue(rs, j, r.at, 330), st.owner)
    decreases |rs| - j
  {
    if j == |rs| then Fail(EndOfRecords, j)
    else if rs[j].code == StartCode then Next(st, j)
    else
      match SortRecord(st, rs[j])
      case WrongKind => Fail(InvalidValue, j)
      case Got(st') =>
        var r := SortLoop(rs, j + 1, st');
        if r.Next? then
          LastValueFront(rs, j, r.at, 330);
          LastValueFrom(rs, j + 1, r.at, 330);
          r
        else r
  }

  /** Records j and j + 1 hold the pair p, in either order: its sort handle
      as a code-5 record and its entity as a code-331 record. */
  predicate PairRecords(rs: seq<Record>, j: nat, p: (Handle, Handle)) {
    j + 2 <= |rs| &&
    ((rs[j].code == 5 && rs[j].value == VHandle(p.0) && rs[j + 1].code == 331 && rs[j + 1].value == VHandle(p.1)) ||
     (rs[j].code == 331 && rs[j].value == VHandle(p.1) && rs[j + 1].code == 5 && rs[j + 1].value == VHandle(p.0)))
  }

  /** The pairs `ps` are written from record j on, two records each, every
      pair in either order. */
  predicate PairsAt(rs: seq<Record>, j: nat, ps: seq<(Handle, Handle)>)
    decreases |ps|
  {
    if |ps| == 0 then j <= |rs|
    else PairRecords(rs, j, ps[0]) && PairsAt(rs, j + 2, ps[1..])
  }

  /** The two records of a pair, whichever comes first, close that pair. */
  lemma PairStep(rs: seq<Record>, j: nat, st: SortState, p: (Handle, Handle))
    requires PairRecords(rs, j, p)
    requires st.item1.None? && st.item2.None?
    ensures SortLoop(rs, j, st) == SortLoop(rs, j + 2, st.(pairs := st.pairs + [p]))
  {
    var done := st.(pairs := st.pairs + [p]);
    if rs[j].code == 5 {
      var st1 := st.(item1 := Some(p.0));
      assert SortRecord(st, rs[j]) == Got(st1);
      assert SortRecord(st1, rs[j + 1]) == Got(done);
    } else {
      var st1 := st.(item2 := Some(p.1));
      assert SortRecord(st, rs[j]) == Got(st1);
      assert SortRecord(st1, rs[j + 1]) == Got(done);
    }
  }

  /** Pairs written two records each, in either order, give back exactly
      those pairs, in stream order, after whatever pairs were already read. */
  lemma {:induction false} PairsRoundTrip(rs: seq<Record>, j: nat, st: SortState, ps: seq<(Handle, Handle)>)
    requires PairsAt(rs, j, ps) && j + 2 * |ps| < |rs| && rs[j + 2 * |ps|].code == StartCode
    requires st.item1.None? && st.item2.None?
    ensures SortLoop(rs, j, st) == Next(st.(pairs := st.pairs + ps), j + 2 * |ps|)
    decreases |ps|
  {
    if |ps| > 0 {
      var rest := ps[1..];
      var st2 := st.(pairs := st.pairs + [ps[0]]);
      PairStep(rs, j, st, ps[0]);
      PairsRoundTrip(rs, j + 2, st2, rest);
      assert ps == [ps[0]] + rest;
      assert st2.pairs + rest == st.pairs + ps;
    } else {
      assert st.pairs + ps == st.pairs;
    }
  }

  /** A pair is closed by whichever half arrives second: an entity record
      (331) followed by its sort-handle record (5), the order tables are
      written in, closes the pair (sort handle, entity). */
  lemma PairInEitherOrder(rs: seq<Record>, j: nat, st: SortState, a: Handle, b: Handle)
    requires j + 2 < |rs| && rs[j + 2].code == StartCode
    requires rs[j] == Record(331, "", VHandle(b)) && rs[j + 1] == Record(5, "", VHandle(a))
    requires st.item1.None? && st.item2.None?
    ensures SortLoop(rs, j, st) == Next(st.(pairs := st.pairs + [(a, b)]), j + 2)
  {
    var st1 := st.(item2 := Some(b));
    var st2 := st.(pairs := st.pairs + [(a, b)]);
    assert SortRecord(st, rs[j]) == Got(st1);
    assert SortRecord(st1, rs[j + 1]) == Got(st2);
    assert SortLoop(rs, j + 2, st2) == Next(st2, j + 2);
    assert SortLoop(rs, j + 1, st1) == SortLoop(rs, j + 2, st2);
  }

  /** readSortentsTable, from the object's start record: the common object
      data up to the subclass marker, the marker skipped, then the record
      loop from an empty pending pair. */
  function ReadSortEnts(name: string, rs: seq<Record>, i: nat): (r: Step<Template>)
    requires i < |rs|
    ensures r.Next? ==> i < r.at < |rs| && rs[r.at].code == StartCode
    ensures r.Fail? ==> i < r.at <= |rs|
    ensures r.Next? ==> r.value.objectName == name && r.value.body.SortEntsBody?
    ensures r.Next? ==>
              var m := FirstWith(rs, i + 1, SubclassCode);
              m < |rs| && r.at == NextStart(rs, m + 1) &&
              r.value.common == rs[i + 1..m] &&
              r.value.body.blockOwner == OptHandle(LastValue(rs, m + 1, r.at, 330), None)
  {
    var t := NewTemplate(name, SortEntsBody(None, []));
    match CommonObjectData(rs, i + 1, t)
    case Fail(e, k) => Fail(e, k)
    case Next(t', m) =>
      match SortLoop(rs, m + 1, SortState(None, None, None, []))
      case Fail(e, k) => Fail(e, k)
      case Next(st, k) => Next(t'.(body := SortEntsBody(st.owner, st.pairs)), k)
  }

  /** The record loop over an optional owner record and then pairs written
      two records each, in either order: exactly that owner and those pairs. */
  lemma TableLoop(rs: seq<Record>, j: nat, owner: Option<Handle>, ps: seq<(Handle, Handle)>)
    requires owner.Some? ==> j < |rs| && rs[j].code == 330 && rs[j].value == VHandle(owner.value)
    requires var p := j + (if owner.Some? then 1 else 0);
             p + 2 * |ps| < |rs| && PairsAt(rs, p, ps) && rs[p + 2 * |ps|].code == StartCode
    ensures SortLoop(rs, j, SortState(None, None, None, []))
            == Next(SortState(owner, None, None, ps), j + (if owner.Some? then 1 else 0) + 2 * |ps|)
  {
    var p := j + (if owner.Some? then 1 else 0);
    var st0 := SortState(None, None, None, []);
    var st := st0.(owner := owner);
    if owner.Some? {
      assert SortRecord(st0, rs[j]) == Got(st);
    }
    assert SortLoop(rs, j, st0) == SortLoop(rs, p, st);
    PairsRoundTrip(rs, p, st, ps);
    assert st.pairs + ps == ps;
  }

  /** A whole table reads back: after the start record, the common records
      up to the subclass marker are logged; an owner record (330) may follow
      the marker; then pairs written two records each, in either order, give
      back exactly those pairs, in order, with that owner or none. */
  lemma ReadSortEntsRoundTrip(name: string, rs: seq<Record>, i: nat, m: nat, owner: Option<Handle>, p: nat,
                              ps: seq<(Handle, Handle)>)
    requires i < m < |rs| && FirstWith(rs, i + 1, SubclassCode) == m
    requires owner.None? ==> p == m + 1
    requires owner.Some? ==> p == m + 2 && p <= |rs| && rs[m + 1].code == 330 && rs[m + 1].value == VHandle(owner.value)
    requires p + 2 * |ps| < |rs| && PairsAt(rs, p, ps) && rs[p + 2 * |ps|].code == StartCode
    ensures ReadSortEnts(name, rs, i) == Next(Template(name, rs[i + 1..m], [], [], SortEntsBody(owner, ps)), p + 2 * |ps|)
  {
    var t := NewTemplate(name, SortEntsBody(None, []));
    var common := t.(common := rs[i + 1..m]);
    assert t.common + rs[i + 1..m] == rs[i + 1..m];
    assert CommonObjectData(rs, i + 1, t) == Next(common, m);
    var k := p + 2 * |ps|;
    var st := SortState(owner, None, None, ps);
    TableLoop(rs, m + 1, owner, ps);
    assert SortLoop(rs, m + 1, SortState(None, None, None, [])) == Next(st, k);
    ReadSortEntsOf(name, rs, i, common, m, st, k);
  }

  /** ReadSortEnts is its two phases run one after the other. */
  lemma {:induction false} ReadSortEntsOf(name: string, rs: seq<Record>, i: nat, t: Template, m: nat, st: SortState, k: nat)
    requires i < |rs| && CommonObjectData(rs, i + 1, NewTemplate(name, SortEntsBody(None, []))) == Next(t, m)
    requires SortLoop(rs, m + 1, SortState(None, None, None, [])) == Next(st, k)
    ensures ReadSortEnts(name, rs, i) == Next(t.(body := SortEntsBody(st.owner, st.pairs)), k)
  {
  }
}

=== FILE: registry.dfy ===
/** The document builder's handle registry as the build steps see it: each
    registered handle names one object, and a lookup asks for an object of
    an expected type. An object is identified by its handle, so "the same
    instance" means "the same handle". */
module Registry {
  import opened Cad

  /** The part of every object that the common build step (the base
      template's Build) sets up: handle, owner, extension dictionary and
      reactors. */
  datatype Header = Header(handle: Handle, owner: Option<Handle>, xDictionary: Option<Handle>, reactors: seq<Handle>)

  /** The types a build step asks the registry for. */
  datatype ObjKind = DimensionObj | OtherEntityObj | DimensionStyleObj | BlockRecordObj | OtherObj

  type Registry = map<Handle, ObjKind>

  /** The expected type of a lookup: any entity, or a dimension only. */
  datatype Expected = AnEntity | ADimension

  predicate Fits(k: ObjKind, e: Expected) {
    match e
    case AnEntity => k == DimensionObj || k == OtherEntityObj
    case ADimension => k == DimensionObj
  }

  /** TryGetCadObject: a missing handle, an unregistered handle and an object
      of another type are all "not found"; otherwise the object itself. */
  function TryGet(reg: Registry, h: Option<Handle>, e: Expected): (o: Option<Handle>)
    ensures o.Some? <==> h.Some? && h.value in reg && Fits(reg[h.value], e)
    ensures o.Some? ==> o == h
  {
    if h.Some? && h.value in reg && Fits(reg[h.value], e) then h else None
  }

  /** The handles of the registry that resolve to an entity. */
  function Entities(reg: Registry): set<Handle> {
    set h | h in reg && Fits(reg[h], AnEntity)
  }

  /** The handles of `hs` that lie in `s`, in order, each occurrence kept. */
  function Keep(s: set<Handle>, hs: seq<Handle>): (r: seq<Handle>)
    ensures forall x :: multiset(r)[x] == (if x in s then multiset(hs)[x] else 0)
    ensures |r| <= |hs|
  {
    if |hs| == 0 then []
    else
      var rest := Keep(s, hs[1..]);
      assert hs == [hs[0]] + hs[1..];
      if hs[0] in s then [hs[0]] + rest else rest
  }

  /** Membership in a filtered list, as a consequence of the counts. */
  lemma KeepMember(s: set<Handle>, hs: seq<Handle>, x: Handle)
    ensures x in Keep(s, hs) <==> x in s && x in hs
  {
    assert x in Keep(s, hs) <==> multiset(Keep(s, hs))[x] > 0;
    assert x in hs <==> multiset(hs)[x] > 0;
  }

  /** Filtering distributes over concatenation: with Keep(s, [x]) being [x]
      or [], the kept handles appear in the order of the list. */
  lemma {:induction false} KeepConcat(s: set<Handle>, a: seq<Handle>, b: seq<Handle>)
    ensures Keep(s, a + b) == Keep(s, a) + Keep(s, b)
    decreases |a|
  {
    if |a| == 0 {
      assert a + b == b;
    } else {
      assert (a + b)[1..] == a[1..] + b;
      KeepConcat(s, a[1..], b);
    }
  }
}

=== FILE: stream.dfy ===
/** StreamIO: a read/write cursor over an in-memory byte stream. The stream
    is its bytes plus a position; every read returns the value together with
    the stream as the read left it, and a failed read reports the position
    the failure left behind. */
module StreamIO {
  import opened Bytes
  import Codec

  /** The bytes, the position, and whether the stream can grow. A
      MemoryStream made over an existing byte array (StreamIO(byte[]), and
      the copy made of a stream that cannot seek) has a fixed capacity equal
      to the array's length; a stream the caller hands in is taken to grow. */
  datatype Stream = Stream(data: seq<byte>, pos: nat, growable: bool)

  datatype IoError = EndOfStream | ArgumentOutOfRange | NotSupported

  datatype Read<T> = Done(value: T, after: Stream) | Failed(error: IoError, after: Stream)

  /** A UTF-16 code unit, the value of a C# `char`. */
  type Char16 = x: int | 0 <= x < 65536

  /** The number of bytes a read can still obtain (a position past the end
      reads nothing). */
  function Available(s: Stream): nat {
    if s.pos < |s.data| then |s.data| - s.pos else 0
  }

  /** ReadByte: the byte under the cursor, or EndOfStream at the end. */
  function ReadByte(s: Stream): (r: Read<byte>)
    ensures r.Done? <==> s.pos < |s.data|
    ensures r.Done? ==> r.value == s.data[s.pos] && r.after == s.(pos := s.pos + 1)
    ensures r.Failed? ==> r.error == EndOfStream && r.after == s
  {
    if s.pos < |s.data| then Done(s.data[s.pos], s.(pos := s.pos + 1))
    else Failed(EndOfStream, s)
  }

  /** ReadChar: one byte widened to a code unit. */
  function ReadChar(s: Stream): (r: Read<Char16>)
    ensures r.Done? <==> s.pos < |s.data|
    ensures r.Done? ==> r.value == s.data[s.pos] as Char16 && r.after == s.(pos := s.pos + 1)
    ensures r.Failed? ==> r.error == EndOfStream && r.after == s
  {
    match ReadByte(s)
    case Done(b, a) => Done(b as Char16, a)
    case Failed(e, a) => Failed(e, a)
  }

  /** ReadBytes(buffer, length): a negative length is rejected before the
      stream is touched; otherwise the stream hands over what it has, up to
      `length` bytes, and a short read raises EndOfStream after moving past
      what it did hand over. */
  function ReadBytes(s: Stream, length: int): (r: Read<seq<byte>>)
    ensures length < 0 ==> r == Failed(ArgumentOutOfRange, s)
    ensures length >= 0 ==> (r.Done? <==> length <= Available(s))
    ensures r.after == s.(pos := r.after.pos)
    ensures r.Done? ==> |r.value| == length && r.after.pos == s.pos + length
    ensures r.Done? ==> forall i :: 0 <= i < length ==> r.value[i] == s.data[s.pos + i]
    ensures length >= 0 && r.Failed? ==> r.error == EndOfStream && r.after.pos == s.pos + Available(s)
  {
    if length < 0 then Failed(ArgumentOutOfRange, s)
    else
      var n := if length <= Available(s) then length else Available(s);
      if n < length then Failed(EndOfStream, s.(pos := s.pos + n))
      else Done(if n == 0 then [] else s.data[s.pos..s.pos + n], s.(pos := s.pos + n))
  }

  /** Reading one byte is reading a one-byte buffer. */
  lemma ReadByteIsReadBytes(s: Stream)
    ensures ReadByte(s).Done? <==> ReadBytes(s, 1).Done?
    ensures ReadByte(s).Done? ==> [ReadByte(s).value] == ReadBytes(s, 1).value
    ensures ReadByte(s).after == ReadBytes(s, 1).after
  {
  }

  /** ReadUntil(match): characters up to and including the first occurrence of
      `m`; EndOfStream when `m` never occurs before the end. What the
      characters are is stated by ReadUntilFindsFirst. */
  function ReadUntil(s: Stream, m: Char16): (r: Read<seq<Char16>>)
    ensures r.Failed? ==> r.error == EndOfStream
    ensures r.Done? ==> |r.value| >= 1 && r.value[|r.value| - 1] == m
    ensures r.Done? ==> r.after == s.(pos := s.pos + |r.value|) && s.pos + |r.value| <= |s.data|
    decreases |s.data| - s.pos
  {
    match ReadChar(s)
    case Failed(e, a) => Failed(e, a)
    case Done(c, a) =>
      if c == m then Done([c], a)
      else
        match ReadUntil(a, m)
        case Done(rest, a2) => Done([c] + rest, a2)
        case Failed(e, a2) => Failed(e, a2)
  }

  /** ReadUntil fails exactly when `m` does not occur in the rest of the
      stream. */
  lemma {:induction false} ReadUntilFails(s: Stream, m: Char16)
    ensures ReadUntil(s, m).Failed? <==> forall i :: s.pos <= i < |s.data| ==> s.data[i] != m
    decreases |s.data| - s.pos
  {
    if s.pos < |s.data| && s.data[s.pos] != m {
      ReadUntilFails(s.(pos := s.pos + 1), m);
    }
  }

  /** What ReadUntil returns is the stream's characters from the cursor. */
  lemma {:induction false} ReadUntilChars(s: Stream, m: Char16, v: seq<Char16>, after: Stream)
    requires ReadUntil(s, m) == Done(v, after)
    ensures forall i :: 0 <= i < |v| ==> v[i] == s.data[s.pos + i]
    decreases |s.data| - s.pos
  {
    if s.data[s.pos] != m {
      var a := s.(pos := s.pos + 1);
      var r := ReadUntil(a, m);
      assert r.Done? && v == [s.data[s.pos] as Char16] + r.value;
      ReadUntilChars(a, m, r.value, r.after);
      assert forall i :: 1 <= i < |v| ==> v[i] == r.value[i - 1];
    } else {
      assert v == [m];
    }
  }

  /** The `m` that ends what ReadUntil returns is its first occurrence. */
  lemma {:induction false} ReadUntilFirst(s: Stream, m: Char16, v: seq<Char16>, after: Stream)
    requires ReadUntil(s, m) == Done(v, after)
    ensures forall i :: 0 <= i < |v| - 1 ==> v[i] != m
    decreases |s.data| - s.pos
  {
    if s.data[s.pos] != m {
      var a := s.(pos := s.pos + 1);
      var r := ReadUntil(a, m);
      assert r.Done? && v == [s.data[s.pos] as Char16] + r.value;
      ReadUntilFirst(a, m, r.value, r.after);
      assert forall i :: 1 <= i < |v| ==> v[i] == r.value[i - 1];
    } else {
      assert v == [m];
    }
  }

  /** ReadShort/ReadUShort/ReadInt/ReadUInt/ReadLong/ReadULong/ReadSingle/
      ReadDouble<T>: read exactly the kind's width into a fresh buffer and
      decode it through the chosen converter. The bytes consumed are the
      converter's encoding of the value returned. */
  function ReadValue(s: Stream, k: Codec.Kind, conv: Codec.Converter): (r: Read<int>)
    ensures r.Done? <==> s.pos + Codec.Width(k) <= |s.data|
    ensures r.Done? ==> r.after == s.(pos := s.pos + Codec.Width(k))
    ensures r.Done? ==> Codec.InRange(k, r.value)
    ensures r.Done? ==> Codec.Encode(conv, k, r.value) == s.data[s.pos..s.pos + Codec.Width(k)]
    ensures r.Failed? ==> r.error == EndOfStream
  {
    match ReadBytes(s, Codec.Width(k))
    case Failed(e, a) => Failed(e, a)
    case Done(buffer, a) =>
      assert buffer == s.data[s.pos..s.pos + Codec.Width(k)];
      var v := Codec.Decode(conv, k, buffer);
      DecodeIsEncodeInverse(conv, k, buffer);
      Done(v, a)
  }

  lemma DecodeIsEncodeInverse(conv: Codec.Converter, k: Codec.Kind, bs: seq<byte>)
    requires |bs| == Codec.Width(k)
    ensures Codec.Encode(conv, k, Codec.Decode(conv, k, bs)) == bs
  {
    match conv
    case Native => Codec.NativeEncodeDecode(k, bs);
    case Inverse => Codec.ToValueRoundTrip(k, bs);
  }

  // The eight fixed-width readers: each is ReadValue at its kind's width,
  // with the value range of that kind written out.

  function ReadShort(s: Stream, conv: Codec.Converter): (r: Read<int>)
    ensures r.Done? <==> s.pos + 2 <= |s.data|
    ensures r.Done? ==> r.after == s.(pos := s.pos + 2) && -0x8000 <= r.value < 0x8000
    ensures r.Done? ==> Codec.Encode(conv, Codec.Int16, r.value) == s.data[s.pos..s.pos + 2]
    ensures r.Failed? ==> r.error == EndOfStream
  {
    ReadValue(s, Codec.Int16, conv)
  }

  function ReadUShort(s: Stream, conv: Codec.Converter): (r: Read<int>)
    ensures r.Done? <==> s.pos + 2 <= |s.data|
    ensures r.Done? ==> r.after == s.(pos := s.pos + 2) && 0 <= r.value < 0x1_0000
    ensures r.Done? ==> Codec.Encode(conv, Codec.UInt16, r.value) == s.data[s.pos..s.pos + 2]
    ensures r.Failed? ==> r.error == EndOfStream
  {
    ReadValue(s, Codec.UInt16, conv)
  }

  function ReadInt(s: Stream, conv: Codec.Converter): (r: Read<int>)
    ensures r.Done? <==> s.pos + 4 <= |s.data|
    ensures r.Done? ==> r.after == s.(pos := s.pos + 4) && -0x8000_0000 <= r.value < 0x8000_0000
    ensures r.Done? ==> Codec.Encode(conv, Codec.Int32, r.value) == s.data[s.pos..s.pos + 4]
    ensures r.Failed? ==> r.error == EndOfStream
  {
    ReadValue(s, Codec.Int32, conv)
  }

  function ReadUInt(s: Stream, conv: Codec.Converter): (r: Read<int>)
    ensures r.Done? <==> s.pos + 4 <= |s.data|
    ensures r.Done? ==> r.after == s.(pos := s.pos + 4) && 0 <= r.value < 0x1_0000_0000
    ensures r.Done? ==> Codec.Encode(conv, Codec.UInt32, r.value) == s.data[s.pos..s.pos + 4]
    ensures r.Failed? ==> r.error == EndOfStream
  {
    ReadValue(s, Codec.UInt32, conv)
  }

  function ReadLong(s: Stream, conv: Codec.Converter): (r: Read<int>)
    ensures r.Done? <==> s.pos + 8 <= |s.data|
    ensures r.Done? ==> r.after == s.(pos := s.pos + 8) && -0x8000_0000_0000_0000 <= r.value < 0x8000_0000_0000_0000
    ensures r.Done? ==> Codec.Encode(conv, Codec.Int64, r.value) == s.data[s.pos..s.pos + 8]
    ensures r.Failed? ==> r.error == EndOfStream
  {
    ReadValue(s, Codec.Int64, conv)
  }

  function ReadULong(s: Stream, conv: Codec.Converter): (r: Read<int>)
    ensures r.Done? <==> s.pos + 8 <= |s.data|
    ensures r.Done? ==> r.after == s.(pos := s.pos + 8) && 0 <= r.value < 0x1_0000_0000_0000_0000
    ensures r.Done? ==> Codec.Encode(conv, Codec.UInt64, r.value) == s.data[s.pos..s.pos + 8]
    ensures r.Failed? ==> r.error == EndOfStream
  {
    ReadValue(s, Codec.UInt64, conv)
  }

  function ReadSingle(s: Stream, conv: Codec.Converter): (r: Read<int>)
    ensures r.Done? <==> s.pos + 4 <= |s.data|
    ensures r.Done? ==> r.after == s.(pos := s.pos + 4) && 0 <= r.value < 0x1_0000_0000
    ensures r.Done? ==> Codec.Encode(conv, Codec.Single, r.value) == s.data[s.pos..s.pos + 4]
    ensures r.Failed? ==> r.error == EndOfStream
  {
    ReadValue(s, Codec.Single, conv)
  }

  function ReadDouble(s: Stream, conv: Codec.Converter): (r: Read<int>)
    ensures r.Done? <==> s.pos + 8 <= |s.data|
    ensures r.Done? ==> r.after == s.(pos := s.pos + 8) && 0 <= r.value < 0x1_0000_0000_0000_0000
    ensures r.Done? ==> Codec.Encode(conv, Codec.Double, r.value) == s.data[s.pos..s.pos + 8]
    ensures r.Failed? ==> r.error == EndOfStream
  {
    ReadValue(s, Codec.Double, conv)
  }

  /** ReadString(length, encoding): a zero length returns the empty string
      without touching the stream; otherwise exactly `length` bytes are read
      and handed to the text decoder, which is a parameter here. */
  function ReadString(s: Stream, length: int, decodeText: seq<byte> -> string): (r: Read<string>)
    ensures length == 0 ==> r == Done("", s)
    ensures length < 0 ==> r.Failed? && r.error == ArgumentOutOfRange && r.after == s
    ensures length > 0 ==> (r.Done? <==> s.pos + length <= |s.data|)
    ensures r.Done? && length != 0 ==>
              r.value == decodeText(s.data[s.pos..s.pos + length]) && r.after == s.(pos := s.pos + length)
  {
    if length == 0 then Done("", s)
    else
      match ReadBytes(s, length)
      case Failed(e, a) => Failed(e, a)
      case Done(bytes, a) =>
        assert bytes == s.data[s.pos..s.pos + length];
        Done(decodeText(bytes), a)
  }

  /** GetBytesAsync(offset, length), taken as synchronous: reads `length` bytes
      starting at `offset` and, on success, puts the position back where it
      was. A negative length fails before the position moves, and so does a
      negative offset (the position setter rejects it); a short read leaves
      the position where the read stopped. */
  function GetBytesAt(s: Stream, offset: int, length: int): (r: Read<seq<byte>>)
    ensures length < 0 ==> r == Failed(ArgumentOutOfRange, s)
    ensures r.Done? <==> 0 <= offset && 0 <= length && (length == 0 || offset + length <= |s.data|)
    ensures r.Done? ==> r.after == s && |r.value| == length
    ensures r.Done? && length > 0 ==> r.value == s.data[offset..offset + length]
    ensures r.Failed? && 0 <= offset && 0 <= length ==> r.error == EndOfStream && r.after.pos >= offset
  {
    if length < 0 then Failed(ArgumentOutOfRange, s)
    else if offset < 0 then Failed(ArgumentOutOfRange, s)
    else
      match ReadBytes(s.(pos := offset), length)
      case Done(buffer, _) =>
        assert length > 0 ==> buffer == s.data[offset..offset + length];
        Done(buffer, s)
      case Failed(e, a) => Failed(e, a)
  }

  // ----- Writing -----

  /** Zero bytes, the fill a write past the end leaves in the gap. */
  function Zeros(n: nat): (r: seq<byte>)
    ensures |r| == n && forall i :: 0 <= i < n ==> r[i] == 0
  {
    seq(n, _ => 0)
  }

  /** The bytes after a write of `bytes` at the position: they overwrite
      what is there and extend the data when the write runs past its end. */
  function Overwrite(s: Stream, bytes: seq<byte>): (d: seq<byte>)
    ensures |d| == if s.pos + |bytes| > |s.data| then s.pos + |bytes| else |s.data|
    ensures d[s.pos..s.pos + |bytes|] == bytes
    ensures forall i :: 0 <= i < |s.data| && (i < s.pos || i >= s.pos + |bytes|) ==> d[i] == s.data[i]
    ensures forall i :: |s.data| <= i < s.pos ==> d[i] == 0
  {
    var front := if s.pos <= |s.data| then s.data[..s.pos] else s.data + Zeros(s.pos - |s.data|);
    var back := if s.pos + |bytes| < |s.data| then s.data[s.pos + |bytes|..] else [];
    front + bytes + back
  }

  /** WriteBytes(buffer): writes `bytes` at the position, overwriting what is
      there, and moves past them. A growable stream extends past its end (a
      gap left by a position beyond the end reads as zeros); a stream of
      fixed capacity raises NotSupported for a write that does not fit, and
      then nothing is written. */
  function WriteBytes(s: Stream, bytes: seq<byte>): (r: Read<()>)
    ensures r.Failed? <==> !s.growable && s.pos + |bytes| > |s.data|
    ensures r.Failed? ==> r.error == NotSupported && r.after == s
    ensures r.Done? ==> r.after.pos == s.pos + |bytes| && r.after.growable == s.growable
    ensures r.Done? ==> |r.after.data| == if s.pos + |bytes| > |s.data| then s.pos + |bytes| else |s.data|
    ensures r.Done? ==> r.after.data[s.pos..s.pos + |bytes|] == bytes
    ensures r.Done? ==> forall i :: 0 <= i < |s.data| && (i < s.pos || i >= s.pos + |bytes|) ==> r.after.data[i] == s.data[i]
    ensures r.Done? ==> forall i :: |s.data| <= i < s.pos ==> r.after.data[i] == 0
  {
    if !s.growable && s.pos + |bytes| > |s.data| then Failed(NotSupported, s)
    else Done((), Stream(Overwrite(s, bytes), s.pos + |bytes|, s.growable))
  }

  /** At the end of a growable stream a write is an append; at the end of a
      fixed one, only an empty write succeeds. */
  lemma WriteAtEndAppends(s: Stream, bytes: seq<byte>)
    requires s.pos == |s.data|
    ensures WriteBytes(s, bytes)
            == if s.growable || |bytes| == 0 then Done((), Stream(s.data + bytes, |s.data| + |bytes|, s.growable))
               else Failed(NotSupported, s)
  {
  }

  /** The bytes a converter produces for GetBytes<T>: the nine kinds encode,
      any other struct type raises NotSupported. */
  function ConverterBytes(conv: Codec.Converter, v: Codec.StructValue): (r: Codec.Result<seq<byte>>)
    requires Codec.WellFormed(v)
    ensures r.Err? <==> v.OtherStruct?
    ensures r.Ok? ==> r.value == Codec.Encode(conv, v.kind, v.bits)
  {
    match conv
    case Inverse => Codec.GetBytesOf(v)
    case Native =>
      match v
      case Prim(k, b) => Codec.Ok(Codec.NativeEncode(k, b))
      case OtherStruct(_) => Codec.Err(Codec.NotSupported)
  }

  /** Write<T>(value, converter): writes exactly the converter's bytes for the
      value; an unsupported type fails before anything is written, and so
      does a write that does not fit a stream of fixed capacity. */
  function Write(s: Stream, v: Codec.StructValue, conv: Codec.Converter): (r: Read<()>)
    requires Codec.WellFormed(v)
    ensures r.Failed? <==> v.OtherStruct? || (!s.growable && s.pos + Codec.Width(v.kind) > |s.data|)
    ensures r.Failed? ==> r.error == NotSupported && r.after == s
    ensures v.Prim? ==> r == WriteBytes(s, Codec.Encode(conv, v.kind, v.bits))
  {
    match ConverterBytes(conv, v)
    case Err(_) => Failed(NotSupported, s)
    case Ok(bytes) => WriteBytes(s, bytes)
  }

  /** A converter's encoding determines the value it encodes. */
  lemma EncodeInjective(conv: Codec.Converter, k: Codec.Kind, a: int, b: int)
    requires Codec.InRange(k, a) && Codec.InRange(k, b)
    requires Codec.Encode(conv, k, a) == Codec.Encode(conv, k, b)
    ensures a == b
  {
    Codec.ConverterRoundTrip(conv, k, a);
    Codec.ConverterRoundTrip(conv, k, b);
  }

  /** A value written to a stream with room for it (or that can grow) reads
      back from where the write started, with the same converter, and the
      read ends where the write ended. */
  lemma {:induction false} WriteThenRead(s: Stream, k: Codec.Kind, v: int, conv: Codec.Converter)
    requires Codec.InRange(k, v)
    ensures Write(s, Codec.Prim(k, v), conv).Done? <==> s.growable || s.pos + Codec.Width(k) <= |s.data|
    ensures Write(s, Codec.Prim(k, v), conv).Done? ==>
              ReadValue(Write(s, Codec.Prim(k, v), conv).after.(pos := s.pos), k, conv)
              == Done(v, Write(s, Codec.Prim(k, v), conv).after)
  {
    var bytes := Codec.Encode(conv, k, v);
    var wr := WriteBytes(s, bytes);
    assert Write(s, Codec.Prim(k, v), conv) == wr;
    if wr.Done? {
      var w := wr.after;
      var back := ReadValue(w.(pos := s.pos), k, conv);
      assert back.Done? && back.after == w;
      EncodeInjective(conv, k, back.value, v);
    }
  }
}
